=== FILE: README.md ===
# Vigilant Eye detection engine — Dafny model

This project models the detection and scoring core of the Vigilant Eye
browser extension. It also models the background coordinator's auto-report log.

- **Content script (`content.js`).** `performScan` runs three stages over the page:
  - a keyword scan over text nodes: a lower-case substring pre-filter, then a
    whole-word `\b…\b` case-insensitive regular expression built with `escapeRegExp`;
  - link analysis: a mismatch between the link text and the target host name,
    a blocklisted-TLD substring check, and a once-per-anchor `vigilantChecked` marker;
  - form analysis: password fields, sensitive field names, and the `http:` scheme.

  From the findings it computes the clamped linear threat score and the
  `updateStatus` message. Scans are driven by the MutationObserver callback
  and the one-slot `isScanPending` flag.
- **Background (`background.js`).** The `updateStatus` handler sets the badge.
  Below score 45 it calls `processAutoReport`: a one-hour duplicate check per
  domain, prepending the new report, and a cap at 50 entries.
  `getDetailedReports` answers with the stored log.

The document is abstract. Text nodes are records of parent tag, inside-sidebar
flag, parent-has-highlight-class flag and text. Anchors are records of resolved
href, `innerText` and marker. Inputs are records of type and name. The page also
carries its `location.protocol`. `new URL(...).hostname` is a parameter
`parse: string -> Option<string>` whose `None` stands for the constructor
throwing. Time (`Date.now()`) and the random incident id are parameters too.

Modules, one per component:

| file | module | models |
|---|---|---|
| wrappers.dfy | Wrappers | `Option` |
| text.dfy | Text | `toLowerCase`, `includes`, `startsWith`, `replace` with a string pattern (ASCII) |
| regex.dfy | Regex | `escapeRegExp`, `\b` word boundaries, the whole-word case-insensitive test |
| document.dfy | Document | page, rule set, finding, state and message records |
| keywords.dfy | Keywords | stage A of `performScan`, the highlight guard |
| links.dfy | Links | stage B of `performScan` |
| forms.dfy | Forms | stage C of `performScan` |
| scan.dfy | Scan | the score, `performScan` as a whole, the outbound message |
| seqs.dfy | Seqs | generic sequence facts (associativity of concatenation, prefixes of one sequence, the multiset of a middle part) used by the other modules' proofs |
| scheduler.dfy | Scheduler | initialisation, the pending-scan scheduler, the report-confirmed listener |
| background.dfy | Background | `updateBadge`, the `updateStatus` threshold, `processAutoReport`, `getDetailedReports` |

The model follows the code as written, also where its behaviour may surprise:
- A mutation that arrives while a scan is pending is ignored. The timer is not
  restarted, so the scan fires 750 ms after the FIRST mutation of a burst, not
  after the last (content.js:28-35).
- `hostname.replace('www.', '')` removes the first `www.` anywhere in the host
  name, not only a leading one (content.js:104).
- A link text that starts with `http` gets no `http://` prefix (content.js:102).
- `details.hiddenElements` and `threatState.hidden` are always empty (content.js:57).
- Wrapping a text node replaces the tree walker's current node with a new
  element (content.js:251). The walker then has no next node, so the keyword
  walk ends at the first node it wraps. A scan therefore wraps at most one node
  and finds no keyword after it. Nodes whose parent already has the highlight
  class are not wrapped; their keyword is counted and the walk goes on
  (content.js:69-83).
- The sensitive-name test lower-cases the field name but not the rule entries
  (content.js:128-129).
- The observer watches all of `document.body`, including the sidebar
  (content.js:37). Changes inside the sidebar are therefore not ignored. As
  written, the sidebar redraw after each scan is itself a child-list change
  that arms the timer again. In the model this is just a `Mutation` event
  supplied from outside.

## Model

| member | source | states |
|---|---|---|
| Text.Lower | content.js:75 | `toLowerCase` keeps the length and lower-cases each ASCII letter, leaving every other character as it is |
| Text.IndexOf | content.js:75 | `includes`/`indexOf`: the result is an occurrence at or after the start, and no earlier occurrence exists; `None` means no occurrence at all |
| Text.ReplaceFirst | content.js:104 | a string-pattern `replace` replaces only the leftmost occurrence, wherever it is; a string without one is returned unchanged |
| Regex.EscapeRegExp | content.js:254-256 | the escaped keyword is longer than the keyword by exactly the number of special characters it contains |
| Regex.UnescapeEscape | content.js:254-256 | removing the backslash in front of each special character gives back the original keyword |
| Regex.EscapeAppend | content.js:254-256 | escaping works character by character: escaping a concatenation is the concatenation of the escapes |
| Regex.EscapeSingle | content.js:255 | a special character gets exactly one backslash in front; any other character is left unchanged |
| Regex.SearchFrom | content.js:76-77 | the left-to-right search succeeds iff some start position at or after `from` has a case-insensitive occurrence with a word boundary on both sides |
| Regex.RegexTest | content.js:76-77 | `regex.test` of `\b<keyword>\b` with flag `i` holds iff the keyword occurs somewhere as a whole word, ignoring ASCII case |
| Regex.PrefilterImpliedByRegex | content.js:75-77 | every text the regular expression accepts also passes the lower-case `includes` pre-filter |
| Regex.ClassNotInClassified | content.js:76-77 | "class" is not a whole-word match in "classified" |
| Regex.SpacedWordMatches | content.js:76-77 | a keyword that starts and ends with a word character matches between two spaces, whatever the case of the text |
| Regex.ClassInSentence | content.js:76-77 | "class" is a whole-word match in "enter your class now" |
| Keywords.FirstKeywordFrom | content.js:73-85 | the `for…of` loop with `break`: the index found is the first at or after the start whose keyword passes both tests; none means no keyword from the start on passes |
| Keywords.FirstKeyword | content.js:73-85 | the chosen keyword passes both tests and no earlier keyword in rule order does; no result means no keyword passes |
| Keywords.NodeKeywordSpec | content.js:60-86 | a text node yields at most one keyword, the first in rule order that passes both tests; nodes under 3 characters, nodes under SCRIPT/STYLE/NOSCRIPT/TEXTAREA and nodes in the sidebar yield none |
| Keywords.AllHitsExact | content.js:69-87 | in the reference walk that never stops early, every listed finding is the keyword its node yields |
| Keywords.HitsFrom | content.js:69-87 | the walk's findings are on nodes from the start on, at most one per text node |
| Keywords.HitsPrefix | content.js:69-87 | the walk's findings are a prefix of the findings of all nodes in document order |
| Keywords.HitsIncreasing | content.js:69-87 | the walk's findings are in document order |
| Keywords.HitsFromExact | content.js:69-87 | every finding of the walk is the keyword its node yields |
| Keywords.HitFor | content.js:69-87 | every node that yields a keyword and that the walk reaches, with no earlier node wrapped, appears in the findings |
| Keywords.HitsReached | content.js:69-87 | every finding is on a node the walk reaches: no node before it was wrapped |
| Keywords.WalkEndsAtWrap | content.js:78-79 | when some node gets wrapped, the walk's last finding is on a node that is wrapped |
| Keywords.NothingWrapsAllHits | content.js:69-87 | when no node gets wrapped, the walk lists the finding of every node |
| Keywords.OnlyLastUnhighlighted | content.js:78-79 | every finding but the walk's last is on a node whose parent already has the highlight class |
| Keywords.WrappedOnlyLast | content.js:78-79 | when all findings but the last are highlighted, only the last can be wrapped, and it is iff its parent is not highlighted |
| Keywords.WalkWrapsFirst | content.js:78-79 | the walk wraps exactly its last finding's node when some node gets wrapped, and nothing otherwise |
| Keywords.LastHitWraps | content.js:78-79 | when some node gets wrapped, the last finding is on the first such node, and its keyword is that node's |
| Keywords.WrappedIff | content.js:246-247 | the wrapped nodes are exactly the nodes with a finding whose parent is not highlighted |
| Keywords.Walk | content.js:69-87 | the keyword list is a prefix of all nodes' keywords; at most one node is wrapped, the first with a keyword and no highlighted parent, and its keyword is the last found, which is the reference walk's finding on that same node, so the number of findings is fixed; if there is such a node one node is wrapped; if there is none nothing is wrapped and every node's keyword is listed |
| Keywords.AcceptsIffWholeWord | content.js:75-77 | pre-filter and regular expression together accept exactly the whole-word case-insensitive occurrences |
| Keywords.NodeKeywordIgnoresHighlight | content.js:73-85 | the keyword a node yields does not depend on whether its parent is highlighted |
| Keywords.AllHitsIgnoreHighlight | content.js:73-85 | the findings of all nodes do not depend on the highlight class |
| Keywords.KeywordsIgnoreHighlight | content.js:69-87 | for pages that differ only in highlighting, one keyword list extends the other; when no node of either gets wrapped they are equal |
| Keywords.WalkOne | content.js:78-81 | a single node with a keyword is found, and wrapped unless already highlighted |
| Keywords.WalkTwo | content.js:69-87 | of two nodes with keywords, the second is found only when the first is already highlighted |
| Keywords.SecondNodeNeedsHighlightedFirst | content.js:69-87 | two text nodes that both hold a keyword: wrapping the first ends the walk, so the second is counted only when the first's parent is already highlighted |
| Keywords.SidebarTextIgnored | content.js:62 | text inside the sidebar root yields no finding even when it contains a keyword |
| Keywords.ClassNodeKeyword | content.js:73-85 | with rules ["class"], a paragraph "enter your class now" yields "class" |
| Keywords.ClassSentenceFound | content.js:74-84 | with rules ["class"], "enter your class now" yields one finding, and is wrapped only when not yet highlighted |
| Links.LabelUrl | content.js:102 | the URL tried for a link text always starts with "http"; a text already starting with "http" is used as is, any other text gets "http://" in front |
| Links.AnchorFindings | content.js:99-123 | an unmarked anchor yields at most two findings, all for its href; a mismatch finding iff the mismatch test holds, a bad-TLD finding iff some listed TLD is a substring of the href; mismatch comes first |
| Links.ScanLinks | content.js:90-94 | after link analysis every anchor is marked and nothing else about it changes; at most two findings per anchor |
| Links.CheckedAnchorsYieldNothing | content.js:93 | anchors that are all marked yield no findings |
| Links.RescanFindsNoLinks | content.js:92-94 | scanning the anchors a second time yields no link findings |
| Links.FindingsFromUncheckedAnchors | content.js:92-124 | every link finding belongs to an anchor that was unmarked before the scan |
| Links.ScanLinksAppend | content.js:92-124 | the link findings of `a + b` are those of `a` followed by those of `b` |
| Links.ScanOneAnchor | content.js:92-124 | a single anchor yields its own findings, or none when already marked |
| Links.UncheckedAnchorReported | content.js:92-124 | every unmarked anchor's findings appear in the scan together, between those of the anchors before and after it |
| Links.MismatchIff | content.js:99-115 | mismatch iff the text contains ".", is under 40 characters, both URLs parse, and the host names differ after removing the first "www." |
| Links.ParseFailureIsNoMismatch | content.js:100-108 | if either URL fails to parse there is no mismatch finding |
| Links.StripWwwInside | content.js:104 | a "www." inside the host name is removed, not only a leading one |
| Links.StripWwwPrefix | content.js:104 | a leading "www." is removed |
| Links.DifferentHostsMismatch | content.js:101-106 | URL-like link text over a link to a different host is a mismatch when neither host contains "www." (e.g. "bank.com" over "evil-bank.net") |
| Links.WwwVariantNoMismatch | content.js:101-106 | link text naming host h over a link to "www." + h is not a mismatch (e.g. "bank.com" over "www.bank.com") |
| Forms.InputFindings | content.js:127-140 | an input yields "Insecure Form (HTTP)" iff it is a password field or has a sensitive name and the protocol is "http:"; it yields "Sensitive Request: "+name iff its lower-cased name contains a sensitive entry; nothing else; an input yields at most one of each, and when it yields both they are the insecure finding followed by the sensitive one; each details entry is "Insecure (HTTP)" or "Sensitive: "+name, matching its finding |
| Forms.FindingsFromInputs | content.js:127-140 | every form finding of a scan comes from some input, and every input's findings all appear in the scan's findings |
| Forms.FindingsComeFromInputs | content.js:127-140 | every form finding of a scan is a finding of some input |
| Forms.ScanFormsAppend | content.js:127-140 | the form findings and details of `a + b` are those of `a` followed by those of `b` |
| Forms.ScanOneInput | content.js:127-140 | a single input yields exactly its own findings and details |
| Forms.InputReported | content.js:127-140 | every input's findings appear in the scan together, between those of the inputs before and after it |
| Forms.ScanForms | content.js:127-140 | details and findings have equal length, at most two per input; on a non-http page there is no insecure-form finding |
| Forms.PasswordOverHttpsIsQuiet | content.js:129-138 | a password field with a harmless name on an https page yields nothing |
| Forms.PasswordOverHttpIsInsecure | content.js:129-134 | the same field on an http page yields exactly the insecure-form finding |
| Scan.Score | content.js:143-144 | the score is a multiple of 10 in [0,100]; it is 100 iff nothing was found and 0 iff ten or more findings were made |
| Scan.ScoreDecreasing | content.js:144 | more findings never raise the score, and lower it strictly until it reaches 0 |
| Scan.ReportThreshold | background.js:19 | the score is below 45 iff there are at least six findings |
| Scan.PerformScan | content.js:53-158 | the keyword list and the wrapped node are those of the text walk, the link findings and the marked anchors are those of the link stage, and the form findings and form details are those of the form stage; the message's threat count is the sum of the three list lengths; the score follows from it and is 100 iff all lists are empty; the keyword and link details equal the state lists and the form details have the same length as the form list; hidden lists are empty; text nodes, inputs and protocol are untouched, all anchors end up marked, and at most one text node is wrapped |
| Scan.RescanIsStable | content.js:92-94 | rescanning the page a scan leaves behind, with its text nodes as they were, yields no link findings and the same keyword and form findings |
| Scan.HighlightedNodesStillCount | content.js:69-83 | keyword findings are pushed whether or not a node is highlighted: pages that differ only in highlighting give keyword lists one of which extends the other, and a page whose text nodes are all highlighted lists every node's keyword and wraps nothing |
| Scan.CriticalIffSixFindings | content.js:143-158 | a scan's message has score below 45 iff it reports at least six threats |
| Scheduler.Start | content.js:19-50 | when the rules load, the session keeps them (absent for a JSON `null`), the observer is installed and one initial scan is queued, on the given page and with no report id yet; when loading throws, nothing is installed or queued |
| Scheduler.RunScan | content.js:53-54 | without rules a scan changes nothing and sends nothing; with rules it sends `performScan`'s message and takes on its new state and page (the anchors marked) while the rest of the session, the report id included, stays as it was, and the message's score is the new state's score |
| Scheduler.Step | content.js:24-45 | every event keeps a timer armed exactly while a scan is pending, and keeps the rules and the observer as they are |
| Scheduler.MutationWhileIdleArms | content.js:28-34 | a mutation while nothing is pending takes on the mutated page, sets the pending flag and arms one timer for 750 ms later, and changes nothing else and scans nothing |
| Scheduler.MutationWhilePendingIgnored | content.js:28 | a mutation while a scan is pending changes nothing but the page; the timer is not restarted |
| Scheduler.PendingClearedOnlyByScan | content.js:31-34 | the pending flag is cleared only by the timer, after the scan has run and sent its message |
| Scheduler.InitialFrameScans | content.js:24 | the animation frame queued at start-up scans the page as loaded, sends that scan's message, takes on its state and leaves no frame queued |
| Scheduler.FrameRunsQueuedScanOnce | content.js:24 | a frame with no scan queued changes nothing; a queued one sends the scan's message, takes on its state and unqueues itself, so it scans once |
| Scheduler.NoRulesNoScan | content.js:54 | without rules no event changes the threat state or sends a message |
| Scheduler.BurstWhilePending | content.js:27-36 | any burst of mutations while pending keeps the deadline, the state and the silence, and the session holds the last mutation's page |
| Scheduler.BurstCoalesces | content.js:27-36 | a burst of mutations from idle arms one timer 750 ms after its first mutation; when it fires exactly one scan runs, on the page of the last mutation, its message is the only one sent, and the session is idle again |
| Scheduler.RunAppend | content.js:27-45 | running two event sequences in turn ends where running their concatenation ends, and sends the first's messages followed by the second's |
| Scheduler.FailedLoadIsInert | content.js:19-50 | if the rule file cannot be loaded, no event sequence ever sends a message or changes the threat state |
| Scheduler.InertStaysInert | content.js:54 | a session without rules sends nothing over any event sequence |
| Background.Prepend | background.js:71-73 | the new report is first; the rest is a prefix of the old log, shortened by exactly one entry only when the log grows past 50 |
| Background.ProcessAutoReport | background.js:39-73 | an unparsable tab URL or a report for the same domain less than an hour old leaves the log unchanged; otherwise the stored log becomes the old log with the new report prepended and capped at 50, and the new id is sent back |
| Background.UpdateBadge | background.js:98-105 | the badge text is "!" with a background colour iff the score is below 100; otherwise the text is empty |
| Background.OnUpdateStatus | background.js:11-21 | a score of 45 or more never touches the report log; below 45 the log changes exactly as `processAutoReport` changes it; the badge is always updated |
| Background.GetDetailedReports | background.js:30-35 | the answer is the stored log, or the empty list when nothing is stored |
| Background.BadgeIgnoresCount | background.js:98-105 | the threat count passed to the badge does not affect it |
| Background.SecondReportIsNoOp | background.js:47-58 | right after a report for a domain is filed, a second call for that domain at the same time changes nothing |
| Background.LogStaysCapped | background.js:71-73 | a log of at most 50 reports stays at most 50 reports |
| Background.KeepsOldOrder | background.js:71-73 | the new log is the new report followed by the old log, cut to at most 50 entries |
| Background.ReportOnlyFromSixFindings | background.js:19 | a scan with fewer than six findings never causes a report |
| Background.FiledReportListedFirst | background.js:54-71 | after a report is filed, `getDetailedReports` lists it first, with the given id, the tab's host name and full URL, timestamp `now`, severity "CRITICAL", the scan's score, and as evidence the keyword list, the number of suspicious links and the form details |
| Background.BadgeIffFindings | background.js:99 | for a scan's message the badge shows "!" iff the scan found something |

## Left out

- Browser plumbing is not modelled: `fetch`, the `MutationObserver` API, `setTimeout`, `requestAnimationFrame`, `chrome.runtime`/`chrome.tabs` messaging, `chrome.storage` and notifications. They appear only as events (`Frame`, `Mutation`, `TimerFired`, `ReportConfirmed`) and as parameters.
- `new URL` parsing is a foreign library. It is the parameter `parse`, and `None` stands for a thrown error.
- The `innerHTML` rewrite in `highlightNode` is not modelled. A scan reports which text node it wraps, and the walk ends there, but the page's text nodes stay as they were. So the new nodes a wrap creates are not modelled: the split text around the highlight span, the keyword text under a highlighted parent that a later scan counts again, and the extra scan their insertion triggers through the observer. The text is also parsed as HTML there, which is not modelled.
- Scan.RescanIsStable: holds for a page whose text nodes are as the first scan left them. In the browser the first scan has split the node it wrapped, so a real second scan walks different nodes and can find more keywords.
- The walk's end after a wrap follows how `TreeWalker.nextNode` treats a current node that has been removed from the document: it has no next sibling and no parent, so no further node is returned.
- The style changes of the link and form stages (the dashed border and red colour at content.js:111 and 118-119, the red border at content.js:131) are not modelled. They are attribute writes, which the observer does not watch (`attributes: false`, content.js:37), so they never trigger a rescan.
- The sidebar (`createSidebar`, `updateSidebar`), `popup.js` and `forensics.js` are left out. They are presentation and never feed back into detection. The report id from `reportConfirmed` is stored only for display.
- The asynchronous read-then-write of the report log in `processAutoReport` is left out. Two overlapping calls can race; the model runs each call atomically.
- `Date.now()` is read twice in `processAutoReport`, for the duplicate check and for the timestamp. The model uses one `now` for both.
- Background.ProcessAutoReport: the incident id is passed in as a string; its `"INC-" + Math.floor(Math.random() * 1000000)` format is not modelled.
- The notification and the `reportConfirmed` message are not modelled beyond the returned id.
- Lower-casing and `\w` cover ASCII only. Unicode case folding and JavaScript's UTF-16 `length` are not modelled; for ASCII text they agree with the model.
- The tree walk is modelled as a sequence of text nodes in document order. The inside-sidebar flag stands for `closest('#vigilant-sidebar-root')`.
- The unused `suspiciousLinks` counter (content.js:91) and the `getHistory` branch that never responds (background.js:25-28) are dead code and are left out.
- The rule file's shape is not checked. A rule file missing one of its lists makes the real scan throw part-way; the model assumes all three lists are present.

=== FILE: background.dfy ===
/** The background coordinator: the badge rule, the auto-report threshold and
    the capped incident-report log. */
module Background {
  import opened Wrappers
  import opened Document
  import Scan

  /** Reports newer than this many milliseconds block a duplicate. */
  const DuplicateWindow := 3600000
  /** The report log is capped at this many entries. */
  const MaxReports := 50
  /** `updateStatus` files a report only below this score. */
  const CriticalScore := 45

  datatype ReportEvidence = ReportEvidence(triggers: seq<string>, badLinks: nat, forms: seq<string>)

  datatype Report = Report(
    id: string,
    timestamp: int,
    severity: string,
    domain: string,
    fullUrl: string,
    score: int,
    evidence: ReportEvidence,
    status: string)

  /** The browser tab that sent the message: its URL. */
  datatype Tab = Tab(url: string)

  /** `reports.find(r => r.domain === host && now - r.timestamp < 3600000)` found one. */
  predicate HasRecentReport(reports: seq<Report>, host: string, now: int) {
    exists i :: 0 <= i < |reports| && reports[i].domain == host && now - reports[i].timestamp < DuplicateWindow
  }

  function NewReport(data: Message, tab: Tab, host: string, now: int, id: string): Report {
    Report(id, now, "CRITICAL", host, tab.url, data.score,
           ReportEvidence(data.details.phishingKeywords, |data.details.suspiciousLinks|, data.details.sensitiveForms),
           "REPORTED_TO_AUTHORITIES")
  }

  /** `unshift` followed by the cap: when the list grows past 50 only its
      last entry is dropped. */
  function Prepend(reports: seq<Report>, rep: Report): (r: seq<Report>)
    ensures |r| > 0 && r[0] == rep
    ensures |r| == if |reports| >= MaxReports then |reports| else |reports| + 1
    ensures r[1..] == reports[..|r| - 1]
    ensures |reports| <= MaxReports ==> |r| <= MaxReports
  {
    var grown := [rep] + reports;
    if |grown| > MaxReports then grown[..|grown| - 1] else grown
  }

  /** What `processAutoReport` leaves behind: the stored list (`None` while
      nothing was ever stored) and the id sent back to the tab. */
  datatype ReportOutcome = ReportOutcome(stored: Option<seq<Report>>, confirmed: Option<string>)

  /** `processAutoReport(data, tab)` with the clock reading `now` and the
      incident id drawn from `Math.random` passed in. A tab URL that does not
      parse throws before storage is read, so nothing changes. */
  function ProcessAutoReport(stored: Option<seq<Report>>, data: Message, tab: Tab,
                             parse: HostParser, now: int, id: string): (r: ReportOutcome)
    ensures parse(tab.url).None? ==> r == ReportOutcome(stored, None)
    ensures parse(tab.url).Some? ==>
              (HasRecentReport(stored.GetOr([]), parse(tab.url).value, now) ==> r == ReportOutcome(stored, None))
    ensures parse(tab.url).Some? ==>
              (!HasRecentReport(stored.GetOr([]), parse(tab.url).value, now) ==>
                 && r.confirmed == Some(id)
                 && r.stored == Some(Prepend(stored.GetOr([]), NewReport(data, tab, parse(tab.url).value, now, id))))
  {
    match parse(tab.url)
    case None => ReportOutcome(stored, None)
    case Some(host) =>
      var reports := stored.GetOr([]);
      if HasRecentReport(reports, host, now) then ReportOutcome(stored, None)
      else ReportOutcome(Some(Prepend(reports, NewReport(data, tab, host, now, id))), Some(id))
  }

  /** The badge: "!" on red when the score is below 100, empty text otherwise
      (the background colour is then left as it was: `None`). */
  datatype Badge = Badge(text: string, color: Option<string>)

  function UpdateBadge(count: int, score: int): (b: Badge)
    ensures b.text == "!" <==> score < 100
    ensures b.text == "" <==> score >= 100
    ensures b.color.Some? <==> score < 100
  {
    if score < 100 then Badge("!", Some("#ef4444")) else Badge("", None)
  }

  /** The effect of one `updateStatus` message. */
  datatype StatusOutcome = StatusOutcome(badge: Badge, report: ReportOutcome)

  function OnUpdateStatus(stored: Option<seq<Report>>, data: Message, tab: Tab,
                          parse: HostParser, now: int, id: string): (r: StatusOutcome)
    ensures data.score >= CriticalScore ==> r.report == ReportOutcome(stored, None)
    ensures data.score < CriticalScore ==> r.report == ProcessAutoReport(stored, data, tab, parse, now, id)
    ensures r.badge == UpdateBadge(data.threats, data.score)
  {
    var badge := UpdateBadge(data.threats, data.score);
    if data.score < CriticalScore then StatusOutcome(badge, ProcessAutoReport(stored, data, tab, parse, now, id))
    else StatusOutcome(badge, ReportOutcome(stored, None))
  }

  /** `getDetailedReports`: the stored list, or the empty list when none is stored. */
  function GetDetailedReports(stored: Option<seq<Report>>): (r: seq<Report>)
    ensures stored.None? ==> r == []
    ensures stored.Some? ==> r == stored.value
  {
    stored.GetOr([])
  }

  /** The badge ignores the threat count. */
  lemma BadgeIgnoresCount(a: int, b: int, score: int)
    ensures UpdateBadge(a, score) == UpdateBadge(b, score)
  {
  }

  /** A freshly filed report blocks a second one for the same domain at the same time. */
  lemma SecondReportIsNoOp(stored: Option<seq<Report>>, data: Message, data2: Message, tab: Tab,
                           parse: HostParser, now: int, id: string, id2: string)
    requires parse(tab.url).Some?
    requires !HasRecentReport(stored.GetOr([]), parse(tab.url).value, now)
    ensures var after := ProcessAutoReport(stored, data, tab, parse, now, id).stored;
            ProcessAutoReport(after, data2, tab, parse, now, id2) == ReportOutcome(after, None)
  {
    var after := ProcessAutoReport(stored, data, tab, parse, now, id).stored;
    assert after.value[0].domain == parse(tab.url).value;
    assert HasRecentReport(after.GetOr([]), parse(tab.url).value, now);
  }

  /** A log of at most 50 reports stays at most 50 reports. */
  lemma {:induction false} LogStaysCapped(stored: Option<seq<Report>>, data: Message, tab: Tab,
                                          parse: HostParser, now: int, id: string)
    requires |stored.GetOr([])| <= MaxReports
    ensures |GetDetailedReports(ProcessAutoReport(stored, data, tab, parse, now, id).stored)| <= MaxReports
  {
  }

  /** The old entries keep their order and contents: the new log is the new
      report followed by the old log, cut at 50 entries. */
  lemma KeepsOldOrder(reports: seq<Report>, rep: Report)
    requires |reports| <= MaxReports
    ensures Prepend(reports, rep) == ([rep] + reports)[..if |reports| == MaxReports then MaxReports else |reports| + 1]
  {
    var r := Prepend(reports, rep);
    assert r == [rep] + r[1..];
  }

  /** End to end with the content script: a scan files a report only when it
      has at least six findings. */
  lemma ReportOnlyFromSixFindings(rules: RuleSet, scanParse: HostParser, page: Page,
                                  stored: Option<seq<Report>>, tab: Tab, parse: HostParser, now: int, id: string)
    ensures var m := Scan.PerformScan(rules, scanParse, page).message;
            m.threats < 6 ==> OnUpdateStatus(stored, m, tab, parse, now, id).report == ReportOutcome(stored, None)
  {
    Scan.ReportThreshold(Scan.PerformScan(rules, scanParse, page).message.threats);
  }

  /** End to end with the content script: the badge shows "!" exactly when
      the scan found something. */
  lemma BadgeIffFindings(rules: RuleSet, scanParse: HostParser, page: Page)
    ensures var m := Scan.PerformScan(rules, scanParse, page).message;
            UpdateBadge(m.threats, m.score).text == "!" <==> m.threats > 0
  {
  }

  /** A filed report is what `getDetailedReports` answers first afterwards. */
  lemma FiledReportListedFirst(stored: Option<seq<Report>>, data: Message, tab: Tab,
                               parse: HostParser, now: int, id: string)
    requires parse(tab.url).Some?
    requires !HasRecentReport(stored.GetOr([]), parse(tab.url).value, now)
    ensures var listed := GetDetailedReports(ProcessAutoReport(stored, data, tab, parse, now, id).stored);
            |listed| > 0 && listed[0].id == id && listed[0].domain == parse(tab.url).value
            && listed[0].timestamp == now && listed[0].severity == "CRITICAL"
            && listed[0].score == data.score && listed[0].fullUrl == tab.url
            && listed[0].evidence == ReportEvidence(data.details.phishingKeywords, |data.details.suspiciousLinks|,
                                                    data.details.sensitiveForms)
  {
  }
}

=== FILE: document.dfy ===
/** The abstract page the scanner walks, the rule file, and the records the
    scan produces and sends to the background coordinator. */
module Document {
  import opened Wrappers

  /** A text node, reduced to what the scan looks at: the tag of its parent
      element, whether it lies inside the extension's own sidebar root, whether
      its parent already carries the highlight class, and its text. */
  datatype TextNode = TextNode(parentTag: string, inSidebar: bool, parentHighlighted: bool, text: string)

  /** An `a[href]` element: the resolved target, the visible label `innerText`
      and the `data-vigilant-checked` marker. */
  datatype Anchor = Anchor(href: string, innerText: string, checked: bool)

  /** An `input` element: its `type` and its `name` (empty when absent). */
  datatype Input = Input(inputType: string, name: string)

  /** The parts of the document a scan reads, in document order, plus the
      page's `location.protocol`. */
  datatype Page = Page(texts: seq<TextNode>, anchors: seq<Anchor>, inputs: seq<Input>, protocol: string)

  /** The rule file: keyword list, suspicious TLD substrings, sensitive field names. */
  datatype RuleSet = RuleSet(keywords: seq<string>, suspiciousTLDs: seq<string>, sensitiveData: seq<string>)

  datatype LinkReason = Mismatch | BadTld

  /** A link finding; the same record serves `links` (`type`) and
      `details.suspiciousLinks` (`reason`). */
  datatype LinkFinding = LinkFinding(reason: LinkReason, url: string)

  /** The `details` object sent to the background coordinator. */
  datatype Details = Details(
    phishingKeywords: seq<string>,
    suspiciousLinks: seq<LinkFinding>,
    sensitiveForms: seq<string>,
    hiddenElements: seq<string>)

  /** The content script's `threatState`. */
  datatype ThreatState = ThreatState(
    keywords: seq<string>,
    links: seq<LinkFinding>,
    forms: seq<string>,
    hidden: seq<string>,
    score: int)

  /** The `data` of the `updateStatus` message. */
  datatype Message = Message(threats: nat, score: int, details: Details)

  /** The state before the first scan completes. */
  const InitialState := ThreatState([], [], [], [], 100)

  /** Host-name extraction of `new URL(s).hostname`; `None` when the
      constructor throws. The URL parser is not part of this model. */
  type HostParser = string -> Option<string>
}

=== FILE: forms.dfy ===
/** Stage C of a scan: form analysis. Inputs carry no marker and are
    examined again on every scan. */
module Forms {
  import opened Text
  import opened Document
  import opened Seqs

  const InsecureForm := "Insecure Form (HTTP)"
  const InsecureDetail := "Insecure (HTTP)"
  const SensitivePrefix := "Sensitive Request: "
  const SensitiveDetailPrefix := "Sensitive: "

  /** `(input.name || '').toLowerCase()`. */
  function FieldName(input: Input): string {
    Lower(input.name)
  }

  /** `sensitiveData.some(d => name.includes(d))`; the entries are not
      lower-cased, only the name is. */
  predicate IsSensitiveName(sensitive: seq<string>, name: string) {
    exists i :: 0 <= i < |sensitive| && Contains(name, sensitive[i])
  }

  predicate IsPassword(input: Input) {
    input.inputType == "password"
  }

  /** The form findings of one input and their `details` counterparts. */
  datatype FormScan = FormScan(forms: seq<string>, details: seq<string>)

  function InputFindings(sensitive: seq<string>, protocol: string, input: Input): (r: FormScan)
    ensures |r.forms| == |r.details| <= 2
    ensures InsecureForm in r.forms <==>
              (IsPassword(input) || IsSensitiveName(sensitive, FieldName(input))) && protocol == "http:"
    ensures SensitivePrefix + FieldName(input) in r.forms <==> IsSensitiveName(sensitive, FieldName(input))
    ensures forall f :: f in r.forms ==> f == InsecureForm || f == SensitivePrefix + FieldName(input)
    ensures forall i :: 0 <= i < |r.forms| && r.forms[i] == InsecureForm ==> r.details[i] == InsecureDetail
    ensures forall i :: 0 <= i < |r.forms| && r.forms[i] != InsecureForm ==>
              r.details[i] == SensitiveDetailPrefix + FieldName(input)
    ensures |r.forms| == 2 ==> r.forms == [InsecureForm, SensitivePrefix + FieldName(input)]
  {
    var name := FieldName(input);
    var sens := IsSensitiveName(sensitive, name);
    if IsPassword(input) || sens then
      var insecure := if protocol == "http:" then FormScan([InsecureForm], [InsecureDetail]) else FormScan([], []);
      var named := if sens then FormScan([SensitivePrefix + name], [SensitiveDetailPrefix + name]) else FormScan([], []);
      assert (SensitivePrefix + name)[0] != InsecureForm[0];
      assert (SensitiveDetailPrefix + name)[0] != InsecureDetail[0];
      FormScan(insecure.forms + named.forms, insecure.details + named.details)
    else
      FormScan([], [])
  }

  function ScanForms(sensitive: seq<string>, protocol: string, inputs: seq<Input>): (r: FormScan)
    ensures |r.forms| == |r.details| <= 2 * |inputs|
    ensures protocol != "http:" ==> InsecureForm !in r.forms
  {
    if |inputs| == 0 then FormScan([], [])
    else
      var first := InputFindings(sensitive, protocol, inputs[0]);
      var rest := ScanForms(sensitive, protocol, inputs[1..]);
      FormScan(first.forms + rest.forms, first.details + rest.details)
  }

  /** A password field on an https page with a harmless name yields nothing. */
  lemma PasswordOverHttpsIsQuiet(sensitive: seq<string>, name: string)
    requires !IsSensitiveName(sensitive, Lower(name))
    ensures InputFindings(sensitive, "https:", Input("password", name)).forms == []
  {
  }

  /** The same password field on an http page is reported as insecure. */
  lemma PasswordOverHttpIsInsecure(sensitive: seq<string>, name: string)
    requires !IsSensitiveName(sensitive, Lower(name))
    ensures InputFindings(sensitive, "http:", Input("password", name)).forms == [InsecureForm]
  {
  }

  /** Every form finding of a scan comes from one of the inputs, which are all
      examined: there is no marker to skip any of them. */
  lemma FindingsFromInputs(sensitive: seq<string>, protocol: string, inputs: seq<Input>)
    ensures forall f :: f in ScanForms(sensitive, protocol, inputs).forms ==>
              exists i :: 0 <= i < |inputs| && f in InputFindings(sensitive, protocol, inputs[i]).forms
    ensures forall i :: 0 <= i < |inputs| ==>
              multiset(InputFindings(sensitive, protocol, inputs[i]).forms) <= multiset(ScanForms(sensitive, protocol, inputs).forms)
  {
    FindingsComeFromInputs(sensitive, protocol, inputs);
    var f := ScanForms(sensitive, protocol, inputs).forms;
    forall i | 0 <= i < |inputs|
      ensures multiset(InputFindings(sensitive, protocol, inputs[i]).forms) <= multiset(f)
    {
      InputReported(sensitive, protocol, inputs, i);
      MiddleInMultiset(ScanForms(sensitive, protocol, inputs[..i]).forms, InputFindings(sensitive, protocol, inputs[i]).forms,
                       ScanForms(sensitive, protocol, inputs[i + 1..]).forms);
    }
  }

  lemma {:induction false} FindingsComeFromInputs(sensitive: seq<string>, protocol: string, inputs: seq<Input>)
    ensures forall f :: f in ScanForms(sensitive, protocol, inputs).forms ==>
              exists i :: 0 <= i < |inputs| && f in InputFindings(sensitive, protocol, inputs[i]).forms
  {
    if |inputs| > 0 {
      FindingsComeFromInputs(sensitive, protocol, inputs[1..]);
      var first := InputFindings(sensitive, protocol, inputs[0]);
      var rest := ScanForms(sensitive, protocol, inputs[1..]);
      assert ScanForms(sensitive, protocol, inputs).forms == first.forms + rest.forms;
      forall f | f in first.forms + rest.forms
        ensures exists i :: 0 <= i < |inputs| && f in InputFindings(sensitive, protocol, inputs[i]).forms
      {
        if f !in first.forms {
          var i :| 0 <= i < |inputs[1..]| && f in InputFindings(sensitive, protocol, inputs[1..][i]).forms;
          assert inputs[i + 1] == inputs[1..][i];
        }
      }
    }
  }

  /** A scan of `a + b` finds what a scan of `a` finds followed by what a
      scan of `b` finds. With `ScanOneInput` this fixes the findings exactly:
      the findings of each input, in document order. */
  lemma {:induction false} ScanFormsAppend(sensitive: seq<string>, protocol: string, a: seq<Input>, b: seq<Input>)
    ensures ScanForms(sensitive, protocol, a + b).forms == ScanForms(sensitive, protocol, a).forms + ScanForms(sensitive, protocol, b).forms
    ensures ScanForms(sensitive, protocol, a + b).details == ScanForms(sensitive, protocol, a).details + ScanForms(sensitive, protocol, b).details
  {
    if |a| > 0 {
      var first := InputFindings(sensitive, protocol, a[0]);
      var ra, rb := ScanForms(sensitive, protocol, a[1..]), ScanForms(sensitive, protocol, b);
      assert (a + b)[0] == a[0];
      assert (a + b)[1..] == a[1..] + b;
      ScanFormsAppend(sensitive, protocol, a[1..], b);
      assert ScanForms(sensitive, protocol, a) == FormScan(first.forms + ra.forms, first.details + ra.details);
      assert ScanForms(sensitive, protocol, a + b) == FormScan(first.forms + (ra.forms + rb.forms), first.details + (ra.details + rb.details));
      AppendAssociative(first.forms, ra.forms, rb.forms);
      AppendAssociative(first.details, ra.details, rb.details);
    } else {
      assert a + b == b;
    }
  }

  /** A single input yields exactly its own findings. */
  lemma ScanOneInput(sensitive: seq<string>, protocol: string, x: Input)
    ensures ScanForms(sensitive, protocol, [x]) == InputFindings(sensitive, protocol, x)
  {
    assert [x][1..] == [];
  }

  /** The findings of every input appear in the scan, together, between the
      findings of the inputs before it and those of the inputs after it. */
  lemma InputReported(sensitive: seq<string>, protocol: string, inputs: seq<Input>, i: nat)
    requires i < |inputs|
    ensures ScanForms(sensitive, protocol, inputs).forms
            == ScanForms(sensitive, protocol, inputs[..i]).forms
               + InputFindings(sensitive, protocol, inputs[i]).forms
               + ScanForms(sensitive, protocol, inputs[i + 1..]).forms
  {
    var pre, x, post := inputs[..i], inputs[i], inputs[i + 1..];
    assert inputs == pre + ([x] + post);
    ScanFormsAppend(sensitive, protocol, pre, [x] + post);
    ScanFormsAppend(sensitive, protocol, [x], post);
    ScanOneInput(sensitive, protocol, x);
    AppendAssociative(ScanForms(sensitive, protocol, pre).forms, InputFindings(sensitive, protocol, x).forms,
                      ScanForms(sensitive, protocol, post).forms);
  }
}

=== FILE: keywords.dfy ===
/** Stage A of a scan: the keyword scan over text nodes. */
module Keywords {
  import opened Wrappers
  import opened Text
  import opened Regex
  import opened Document
  import opened Seqs

  /** Parent tags whose text is never scanned. */
  predicate IsSkippedTag(tag: string) {
    tag == "SCRIPT" || tag == "STYLE" || tag == "NOSCRIPT" || tag == "TEXTAREA"
  }

  /** The tree walker's filter rejects the node. */
  predicate Rejected(n: TextNode) {
    n.inSidebar || IsSkippedTag(n.parentTag)
  }

  /** Both tests a keyword must pass: the lower-case substring pre-filter and
      the whole-word regular expression. */
  predicate Accepts(text: string, kw: string) {
    Contains(Lower(text), Lower(kw)) && RegexTest(text, kw)
  }

  /** Index of the first keyword, in rule order from index `from` on, that
      the text accepts: the `for ... of` loop with its `break`. */
  function FirstKeywordFrom(kws: seq<string>, text: string, from: nat): (r: Option<nat>)
    requires from <= |kws|
    ensures r.Some? ==> from <= r.value < |kws| && Accepts(text, kws[r.value])
    ensures r.Some? ==> forall j :: from <= j < r.value ==> !Accepts(text, kws[j])
    ensures r.None? ==> forall j :: from <= j < |kws| ==> !Accepts(text, kws[j])
    decreases |kws| - from
  {
    if from == |kws| then None
    else if Accepts(text, kws[from]) then Some(from)
    else FirstKeywordFrom(kws, text, from + 1)
  }

  /** Index of the first keyword, in rule order, that the text accepts. */
  function FirstKeyword(kws: seq<string>, text: string): (r: Option<nat>)
    ensures r.Some? ==> r.value < |kws| && Accepts(text, kws[r.value])
    ensures r.Some? ==> forall j :: 0 <= j < r.value ==> !Accepts(text, kws[j])
    ensures r.None? ==> forall j :: 0 <= j < |kws| ==> !Accepts(text, kws[j])
  {
    FirstKeywordFrom(kws, text, 0)
  }

  /** The keyword a node contributes, if any. */
  function NodeKeyword(kws: seq<string>, n: TextNode): Option<string> {
    if Rejected(n) || |n.text| < 3 then None
    else match FirstKeyword(kws, n.text)
      case None => None
      case Some(k) => Some(kws[k])
  }

  /** A node contributes at most one keyword: the first in rule order that
      passes both tests; rejected nodes and nodes shorter than three
      characters contribute none. */
  lemma NodeKeywordSpec(kws: seq<string>, n: TextNode)
    ensures Rejected(n) || |n.text| < 3 ==> NodeKeyword(kws, n).None?
    ensures NodeKeyword(kws, n).Some? ==>
              exists i :: && 0 <= i < |kws| && kws[i] == NodeKeyword(kws, n).value && Accepts(n.text, kws[i])
                          && forall j :: 0 <= j < i ==> !Accepts(n.text, kws[j])
    ensures NodeKeyword(kws, n).None? && !Rejected(n) && |n.text| >= 3 ==>
              forall j :: 0 <= j < |kws| ==> !Accepts(n.text, kws[j])
  {
    if !Rejected(n) && |n.text| >= 3 {
      var f := FirstKeyword(kws, n.text);
      if f.Some? {
        assert kws[f.value] == NodeKeyword(kws, n).value;
      }
    }
  }

  /** What the walk sees of one text node: the keyword it yields, if any, and
      whether its parent already carries the highlight class. */
  datatype Seen = Seen(keyword: Option<string>, highlighted: bool) {
    /** `highlightNode` wraps the node. Wrapping replaces the walker's
        current node with a new element, which leaves the walker nowhere to
        go next, so the walk ends at the first node that wraps. */
    predicate Wraps() {
      keyword.Some? && !highlighted
    }
  }

  function See(kws: seq<string>, n: TextNode): Seen {
    Seen(NodeKeyword(kws, n), n.parentHighlighted)
  }

  function Observe(kws: seq<string>, nodes: seq<TextNode>): (r: seq<Seen>)
    ensures |r| == |nodes|
    ensures forall i :: 0 <= i < |nodes| ==> r[i] == See(kws, nodes[i])
  {
    seq(|nodes|, i requires 0 <= i < |nodes| => See(kws, nodes[i]))
  }

  /** One keyword finding: the index of the text node and the keyword. */
  datatype Hit = Hit(node: nat, keyword: string)

  predicate Increasing(hs: seq<Hit>) {
    forall a, b :: 0 <= a < b < |hs| ==> hs[a].node < hs[b].node
  }

  /** The walk started at node `from` gets as far as node `j`: no node before it wraps. */
  predicate Reaches(ss: seq<Seen>, from: nat, j: nat)
    requires j <= |ss|
  {
    forall i :: from <= i < j ==> !ss[i].Wraps()
  }

  /** Reference walk: the keyword finding of every node from index `from` on,
      as a walk that never stops early would collect them. */
  function AllHitsFrom(ss: seq<Seen>, from: nat): (r: seq<Hit>)
    requires from <= |ss|
    ensures forall h :: h in r ==> from <= h.node < |ss|
    decreases |ss| - from
  {
    if from == |ss| then []
    else
      var rest := AllHitsFrom(ss, from + 1);
      if ss[from].keyword.Some? then [Hit(from, ss[from].keyword.value)] + rest else rest
  }

  /** Every reference hit is a node's keyword finding. */
  lemma {:induction false} AllHitsExact(ss: seq<Seen>, from: nat)
    requires from <= |ss|
    ensures forall h :: h in AllHitsFrom(ss, from) ==> ss[h.node].keyword == Some(h.keyword)
    decreases |ss| - from
  {
    if from < |ss| {
      AllHitsExact(ss, from + 1);
    }
  }

  /** The keyword findings of the walk started at node `from`, in document
      order: it stops right after the first node it wraps. */
  function HitsFrom(ss: seq<Seen>, from: nat): (r: seq<Hit>)
    requires from <= |ss|
    ensures forall h :: h in r ==> from <= h.node < |ss|
    ensures |r| <= |ss| - from
    decreases |ss| - from
  {
    if from == |ss| then []
    else if ss[from].Wraps() then [Hit(from, ss[from].keyword.value)]
    else
      var rest := HitsFrom(ss, from + 1);
      if ss[from].keyword.Some? then [Hit(from, ss[from].keyword.value)] + rest else rest
  }

  /** The walk's hits are a prefix of the reference walk's. */
  lemma {:induction false} HitsPrefix(ss: seq<Seen>, from: nat)
    requires from <= |ss|
    ensures HitsFrom(ss, from) <= AllHitsFrom(ss, from)
    decreases |ss| - from
  {
    if from < |ss| && !ss[from].Wraps() {
      HitsPrefix(ss, from + 1);
    }
  }

  /** The walk's hits are in document order. */
  lemma {:induction false} HitsIncreasing(ss: seq<Seen>, from: nat)
    requires from <= |ss|
    ensures Increasing(HitsFrom(ss, from))
    decreases |ss| - from
  {
    if from < |ss| && !ss[from].Wraps() {
      HitsIncreasing(ss, from + 1);
    }
  }

  /** Every hit is a node's keyword finding. */
  lemma HitsFromExact(ss: seq<Seen>, from: nat)
    requires from <= |ss|
    ensures forall h :: h in HitsFrom(ss, from) ==> ss[h.node].keyword == Some(h.keyword)
  {
    AllHitsExact(ss, from);
    HitsPrefix(ss, from);
    var hs, all := HitsFrom(ss, from), AllHitsFrom(ss, from);
    forall h | h in hs ensures h in all {
      var k :| 0 <= k < |hs| && hs[k] == h;
      assert all[k] == h;
    }
  }

  /** Every node with a finding that the walk reaches has its hit. */
  lemma {:induction false} HitFor(ss: seq<Seen>, from: nat, j: nat)
    requires from <= j < |ss| && ss[j].keyword.Some? && Reaches(ss, from, j)
    ensures Hit(j, ss[j].keyword.value) in HitsFrom(ss, from)
    decreases j - from
  {
    if from < j {
      assert !ss[from].Wraps();
      assert Reaches(ss, from + 1, j);
      HitFor(ss, from + 1, j);
      var rest := HitsFrom(ss, from + 1);
      assert HitsFrom(ss, from) == if ss[from].keyword.Some? then [Hit(from, ss[from].keyword.value)] + rest else rest;
    }
  }

  /** Every hit is on a node the walk reaches. */
  lemma {:induction false} HitsReached(ss: seq<Seen>, from: nat)
    requires from <= |ss|
    ensures forall h :: h in HitsFrom(ss, from) ==> Reaches(ss, from, h.node)
    decreases |ss| - from
  {
    if from < |ss| && !ss[from].Wraps() {
      HitsReached(ss, from + 1);
    }
  }

  /** When some node wraps, the walk's last hit is on a node that wraps. */
  lemma {:induction false} WalkEndsAtWrap(ss: seq<Seen>, from: nat)
    requires from <= |ss|
    ensures !Reaches(ss, from, |ss|) ==>
              var hs := HitsFrom(ss, from); |hs| > 0 && ss[hs[|hs| - 1].node].Wraps()
    decreases |ss| - from
  {
    if from < |ss| && !ss[from].Wraps() && !Reaches(ss, from, |ss|) {
      assert !Reaches(ss, from + 1, |ss|);
      WalkEndsAtWrap(ss, from + 1);
      var rest := HitsFrom(ss, from + 1);
      var hs := HitsFrom(ss, from);
      assert |rest| > 0 && ss[rest[|rest| - 1].node].Wraps();
      assert hs == (if ss[from].keyword.Some? then [Hit(from, ss[from].keyword.value)] + rest else rest);
      assert hs[|hs| - 1] == rest[|rest| - 1];
    } else if from < |ss| && ss[from].Wraps() {
      assert HitsFrom(ss, from) == [Hit(from, ss[from].keyword.value)];
    }
  }

  /** When no node wraps, the walk collects every node's finding. */
  lemma {:induction false} NothingWrapsAllHits(ss: seq<Seen>, from: nat)
    requires from <= |ss|
    ensures Reaches(ss, from, |ss|) ==> HitsFrom(ss, from) == AllHitsFrom(ss, from)
    decreases |ss| - from
  {
    if from < |ss| && Reaches(ss, from, |ss|) {
      assert !ss[from].Wraps();
      NothingWrapsAllHits(ss, from + 1);
    }
  }

  /** Only the last hit of a walk can have a parent without the highlight class. */
  lemma OnlyLastUnhighlighted(ss: seq<Seen>, from: nat)
    requires from <= |ss|
    ensures forall k :: 0 <= k < |HitsFrom(ss, from)| - 1 ==> ss[HitsFrom(ss, from)[k].node].highlighted
  {
    var hs := HitsFrom(ss, from);
    HitsFromExact(ss, from);
    HitsReached(ss, from);
    HitsIncreasing(ss, from);
    forall k | 0 <= k < |hs| - 1 ensures ss[hs[k].node].highlighted {
      var last := hs[|hs| - 1];
      assert last in hs && hs[k] in hs;
      assert from <= hs[k].node < last.node;
      assert !ss[hs[k].node].Wraps();
    }
  }

  function HitKeywords(hs: seq<Hit>): (r: seq<string>)
    ensures |r| == |hs|
    ensures forall i :: 0 <= i < |hs| ==> r[i] == hs[i].keyword
  {
    seq(|hs|, i requires 0 <= i < |hs| => hs[i].keyword)
  }

  lemma HitKeywordsPrefix(p: seq<Hit>, q: seq<Hit>)
    requires p <= q
    ensures HitKeywords(p) <= HitKeywords(q)
  {
    assert forall i :: 0 <= i < |p| ==> p[i] == q[i];
  }

  /** The nodes `highlightNode` wraps: those with a finding whose parent does
      not already carry the highlight class. */
  function Wrapped(ss: seq<Seen>, hs: seq<Hit>): (r: seq<nat>)
    requires forall h :: h in hs ==> h.node < |ss|
  {
    if |hs| == 0 then []
    else if ss[hs[0].node].highlighted then Wrapped(ss, hs[1..])
    else [hs[0].node] + Wrapped(ss, hs[1..])
  }

  lemma {:induction false} WrappedIff(ss: seq<Seen>, hs: seq<Hit>)
    requires forall h :: h in hs ==> h.node < |ss|
    ensures forall j :: j in Wrapped(ss, hs) <==> exists h :: h in hs && h.node == j && !ss[j].highlighted
  {
    if |hs| > 0 {
      WrappedIff(ss, hs[1..]);
      forall j ensures j in Wrapped(ss, hs) <==> exists h :: h in hs && h.node == j && !ss[j].highlighted {
        if (exists h :: h in hs && h.node == j && !ss[j].highlighted) {
          var h :| h in hs && h.node == j && !ss[j].highlighted;
          if h != hs[0] {
            assert h in hs[1..];
          }
        }
      }
    }
  }

  /** When every hit but the last is already highlighted, only the last can be wrapped. */
  lemma {:induction false} WrappedOnlyLast(ss: seq<Seen>, hs: seq<Hit>)
    requires forall h :: h in hs ==> h.node < |ss|
    requires forall k :: 0 <= k < |hs| - 1 ==> ss[hs[k].node].highlighted
    ensures Wrapped(ss, hs) == if |hs| > 0 && !ss[hs[|hs| - 1].node].highlighted then [hs[|hs| - 1].node] else []
  {
    if |hs| > 1 {
      assert ss[hs[0].node].highlighted;
      assert hs[1..][|hs| - 2] == hs[|hs| - 1];
      WrappedOnlyLast(ss, hs[1..]);
    }
  }

  /** The walk wraps exactly one node when some node wraps, the last one it
      reaches, and none otherwise. */
  lemma WalkWrapsFirst(ss: seq<Seen>)
    ensures !Reaches(ss, 0, |ss|) ==>
              |HitsFrom(ss, 0)| > 0 && Wrapped(ss, HitsFrom(ss, 0)) == [HitsFrom(ss, 0)[|HitsFrom(ss, 0)| - 1].node]
    ensures Reaches(ss, 0, |ss|) ==> Wrapped(ss, HitsFrom(ss, 0)) == []
  {
    var hs := HitsFrom(ss, 0);
    OnlyLastUnhighlighted(ss, 0);
    WrappedOnlyLast(ss, hs);
    WalkEndsAtWrap(ss, 0);
    if Reaches(ss, 0, |ss|) && |hs| > 0 {
      HitsFromExact(ss, 0);
      var last := hs[|hs| - 1];
      assert last in hs;
      assert !ss[last.node].Wraps();
    }
  }

  /** When some node wraps, the walk's last hit is the first node that wraps. */
  lemma LastHitWraps(ss: seq<Seen>)
    ensures !Reaches(ss, 0, |ss|) ==>
              var hs := HitsFrom(ss, 0);
              |hs| > 0 && ss[hs[|hs| - 1].node].Wraps() && Reaches(ss, 0, hs[|hs| - 1].node)
                && ss[hs[|hs| - 1].node].keyword == Some(hs[|hs| - 1].keyword)
  {
    var hs := HitsFrom(ss, 0);
    WalkEndsAtWrap(ss, 0);
    if !Reaches(ss, 0, |ss|) {
      HitsFromExact(ss, 0);
      HitsReached(ss, 0);
      assert hs[|hs| - 1] in hs;
    }
  }

  /** The result of stage A. */
  datatype TextScan = TextScan(keywords: seq<string>, wrapped: seq<nat>)

  /** The walk over what it sees of each node: its keywords, in document
      order, and the node it wraps, if any. */
  function Walk(ss: seq<Seen>): (r: TextScan)
    ensures |r.keywords| <= |ss|
    ensures r.keywords <= HitKeywords(AllHitsFrom(ss, 0))
    ensures |r.wrapped| <= 1
    ensures forall j :: j in r.wrapped ==> 0 <= j < |ss| && ss[j].Wraps() && Reaches(ss, 0, j)
    ensures forall j :: j in r.wrapped ==> |r.keywords| > 0 && ss[j].keyword == Some(r.keywords[|r.keywords| - 1])
    ensures forall j :: j in r.wrapped ==>
              0 < |r.keywords| <= |AllHitsFrom(ss, 0)| && AllHitsFrom(ss, 0)[|r.keywords| - 1].node == j
    ensures !Reaches(ss, 0, |ss|) ==> |r.wrapped| == 1
    ensures Reaches(ss, 0, |ss|) ==> r.wrapped == [] && r.keywords == HitKeywords(AllHitsFrom(ss, 0))
  {
    var hs := HitsFrom(ss, 0);
    HitsFromExact(ss, 0);
    HitsReached(ss, 0);
    WalkWrapsFirst(ss);
    NothingWrapsAllHits(ss, 0);
    HitsPrefix(ss, 0);
    HitKeywordsPrefix(hs, AllHitsFrom(ss, 0));
    LastHitWraps(ss);
    TextScan(HitKeywords(hs), Wrapped(ss, hs))
  }

  /** Stage A: the keywords the tree walk finds and the node it wraps, if any. */
  function ScanText(kws: seq<string>, nodes: seq<TextNode>): TextScan {
    Walk(Observe(kws, nodes))
  }

  /** The pre-filter is redundant: a keyword is accepted exactly when it
      occurs as a whole word, ignoring case. */
  lemma AcceptsIffWholeWord(text: string, kw: string)
    ensures Accepts(text, kw) <==> WholeWord(text, kw)
  {
    if RegexTest(text, kw) {
      PrefilterImpliedByRegex(text, kw);
    }
  }

  /** A node's own finding does not depend on whether its parent is highlighted. */
  lemma NodeKeywordIgnoresHighlight(kws: seq<string>, x: TextNode, y: TextNode)
    requires x.(parentHighlighted := false) == y.(parentHighlighted := false)
    ensures NodeKeyword(kws, x) == NodeKeyword(kws, y)
  {
    assert x.text == x.(parentHighlighted := false).text == y.text;
    assert x.parentTag == y.parentTag && x.inSidebar == y.inSidebar by {
      assert x.(parentHighlighted := false).parentTag == x.parentTag;
      assert x.(parentHighlighted := false).inSidebar == x.inSidebar;
    }
  }

  /** The reference walk does not depend on the highlight class at all. */
  lemma {:induction false} AllHitsIgnoreHighlight(ss: seq<Seen>, tt: seq<Seen>, from: nat)
    requires |ss| == |tt| && from <= |ss|
    requires forall i :: 0 <= i < |ss| ==> ss[i].keyword == tt[i].keyword
    ensures AllHitsFrom(ss, from) == AllHitsFrom(tt, from)
    decreases |ss| - from
  {
    if from < |ss| {
      AllHitsIgnoreHighlight(ss, tt, from + 1);
    }
  }

  /** Two pages that differ only in which parents are highlighted give keyword
      lists one of which extends the other: the highlight class decides only
      where the walk stops. When no node of either page wraps, the lists are
      equal. */
  lemma KeywordsIgnoreHighlight(kws: seq<string>, a: seq<TextNode>, b: seq<TextNode>)
    requires |a| == |b|
    requires forall i :: 0 <= i < |a| ==> a[i].(parentHighlighted := false) == b[i].(parentHighlighted := false)
    ensures var ka, kb := ScanText(kws, a).keywords, ScanText(kws, b).keywords;
            ka <= kb || kb <= ka
    ensures Reaches(Observe(kws, a), 0, |a|) && Reaches(Observe(kws, b), 0, |b|) ==>
              ScanText(kws, a).keywords == ScanText(kws, b).keywords
  {
    var sa, sb := Observe(kws, a), Observe(kws, b);
    forall i | 0 <= i < |a| ensures sa[i].keyword == sb[i].keyword {
      NodeKeywordIgnoresHighlight(kws, a[i], b[i]);
    }
    AllHitsIgnoreHighlight(sa, sb, 0);
    var ka, kb := Walk(sa).keywords, Walk(sb).keywords;
    var all := HitKeywords(AllHitsFrom(sa, 0));
    assert all == HitKeywords(AllHitsFrom(sb, 0));
    PrefixesAgree(ka, kb, all);
  }

  /** A walk over one node that yields a keyword finds it, and wraps the node
      unless its parent is already highlighted. */
  lemma WalkOne(s: Seen)
    requires s.keyword.Some?
    ensures Walk([s]) == TextScan([s.keyword.value], if s.highlighted then [] else [0])
  {
    var ss := [s];
    assert HitsFrom(ss, 1) == [];
    assert HitsFrom(ss, 0) == [Hit(0, s.keyword.value)];
  }

  /** A walk over two nodes that both yield a keyword counts the second only
      when the first one's parent is already highlighted. */
  lemma WalkTwo(s: Seen, t: Seen)
    requires s.keyword.Some? && t.keyword.Some?
    ensures Walk([s, t]).keywords == if s.highlighted then [s.keyword.value, t.keyword.value] else [s.keyword.value]
  {
    var ss := [s, t];
    assert HitsFrom(ss, 2) == [];
    assert HitsFrom(ss, 1) == [Hit(1, t.keyword.value)];
  }

  /** Two text nodes that both hold a keyword: the second is counted only when
      the first one's parent is already highlighted, because wrapping the
      first ends the walk. */
  lemma SecondNodeNeedsHighlightedFirst(kws: seq<string>, x: TextNode, y: TextNode)
    requires NodeKeyword(kws, x).Some? && NodeKeyword(kws, y).Some?
    ensures ScanText(kws, [x, y]).keywords ==
              if x.parentHighlighted then [NodeKeyword(kws, x).value, NodeKeyword(kws, y).value]
              else [NodeKeyword(kws, x).value]
  {
    assert Observe(kws, [x, y]) == [See(kws, x), See(kws, y)];
    WalkTwo(See(kws, x), See(kws, y));
  }

  /** A node inside the sidebar contributes nothing even when its text holds a keyword. */
  lemma SidebarTextIgnored(kws: seq<string>, tag: string, hl: bool)
    ensures ScanText(kws, [TextNode(tag, true, hl, "enter your class now")]).keywords == []
  {
    var nodes := [TextNode(tag, true, hl, "enter your class now")];
    var ss := Observe(kws, nodes);
    assert ss == [Seen(None, hl)];
    assert HitsFrom(ss, 1) == [];
  }

  /** With the rule list ["class"], "enter your class now" yields exactly one
      finding and is wrapped unless its parent is already highlighted. */
  lemma ClassSentenceFound(n: TextNode)
    requires n == TextNode("P", false, n.parentHighlighted, "enter your class now")
    ensures ScanText(["class"], [n]).keywords == ["class"]
    ensures ScanText(["class"], [n]).wrapped == (if n.parentHighlighted then [] else [0])
  {
    ClassNodeKeyword(n);
    assert Observe(["class"], [n]) == [See(["class"], n)];
    WalkOne(See(["class"], n));
  }

  lemma ClassNodeKeyword(n: TextNode)
    requires n == TextNode("P", false, n.parentHighlighted, "enter your class now")
    ensures NodeKeyword(["class"], n) == Some("class")
  {
    ClassInSentence();
    PrefilterImpliedByRegex(n.text, "class");
    assert Accepts(n.text, "class");
    assert FirstKeyword(["class"], n.text) == Some(0);
  }
}

=== FILE: links.dfy ===
/** Stage B of a scan: link analysis with the once-per-anchor marker. */
module Links {
  import opened Wrappers
  import opened Text
  import opened Document
  import opened Seqs

  /** The URL tried for a link text: texts already starting with "http" are
      used as they are, all others get "http://" in front. */
  function LabelUrl(text: string): (u: string)
    ensures StartsWith(u, "http")
    ensures StartsWith(text, "http") ==> u == text
    ensures !StartsWith(text, "http") ==> StartsWith(u, "http://") && u[7..] == text
  {
    if StartsWith(text, "http") then text else "http://" + text
  }

  /** `hostname.replace('www.', '')`. */
  function StripWww(host: string): string {
    ReplaceFirst(host, "www.", "")
  }

  /** The link text looks like a URL: it contains a dot and is under 40 characters. */
  predicate LooksLikeUrl(text: string) {
    Contains(text, ".") && |text| < 40
  }

  /** The mismatch check: both URLs parse and their host names differ once
      the first "www." of each is removed. A parse failure is no mismatch. */
  predicate IsMismatch(parse: HostParser, a: Anchor) {
    && LooksLikeUrl(a.innerText)
    && match (parse(LabelUrl(a.innerText)), parse(a.href))
       case (Some(h1), Some(h2)) => StripWww(h1) != StripWww(h2)
       case _ => false
  }

  /** `suspiciousTLDs.some(tld => href.includes(tld))`. */
  predicate HasBadTld(tlds: seq<string>, href: string) {
    exists i :: 0 <= i < |tlds| && Contains(href, tlds[i])
  }

  /** The findings of one unmarked anchor: the mismatch finding first, then
      the bad-TLD finding, each independent of the other. */
  function AnchorFindings(tlds: seq<string>, parse: HostParser, a: Anchor): (r: seq<LinkFinding>)
    ensures |r| <= 2
    ensures forall f :: f in r ==> f.url == a.href
    ensures LinkFinding(Mismatch, a.href) in r <==> IsMismatch(parse, a)
    ensures LinkFinding(BadTld, a.href) in r <==> HasBadTld(tlds, a.href)
    ensures |r| == 2 ==> r == [LinkFinding(Mismatch, a.href), LinkFinding(BadTld, a.href)]
  {
    (if IsMismatch(parse, a) then [LinkFinding(Mismatch, a.href)] else [])
    + (if HasBadTld(tlds, a.href) then [LinkFinding(BadTld, a.href)] else [])
  }

  /** What the stage does with one anchor: a marked anchor is skipped,
      an unmarked one is analysed. */
  function Visit(tlds: seq<string>, parse: HostParser, a: Anchor): seq<LinkFinding> {
    if a.checked then [] else AnchorFindings(tlds, parse, a)
  }

  /** The result of stage B: findings in document order, and the anchors with
      their markers afterwards. */
  datatype LinkScan = LinkScan(findings: seq<LinkFinding>, anchors: seq<Anchor>)

  function ScanLinks(tlds: seq<string>, parse: HostParser, anchors: seq<Anchor>): (r: LinkScan)
    ensures |r.anchors| == |anchors|
    ensures forall i :: 0 <= i < |anchors| ==> r.anchors[i] == anchors[i].(checked := true)
    ensures |r.findings| <= 2 * |anchors|
  {
    if |anchors| == 0 then LinkScan([], [])
    else
      var rest := ScanLinks(tlds, parse, anchors[1..]);
      LinkScan(Visit(tlds, parse, anchors[0]) + rest.findings,
               [anchors[0].(checked := true)] + rest.anchors)
  }

  predicate AllChecked(anchors: seq<Anchor>) {
    forall i :: 0 <= i < |anchors| ==> anchors[i].checked
  }

  /** Marked anchors are never analysed again. */
  lemma {:induction false} CheckedAnchorsYieldNothing(tlds: seq<string>, parse: HostParser, anchors: seq<Anchor>)
    requires AllChecked(anchors)
    ensures ScanLinks(tlds, parse, anchors).findings == []
  {
    if |anchors| > 0 {
      CheckedAnchorsYieldNothing(tlds, parse, anchors[1..]);
    }
  }

  /** A rescan of the same anchors finds nothing: every marker is set by the
      first scan and never cleared. */
  lemma RescanFindsNoLinks(tlds: seq<string>, parse: HostParser, anchors: seq<Anchor>)
    ensures AllChecked(ScanLinks(tlds, parse, anchors).anchors)
    ensures ScanLinks(tlds, parse, ScanLinks(tlds, parse, anchors).anchors).findings == []
  {
    CheckedAnchorsYieldNothing(tlds, parse, ScanLinks(tlds, parse, anchors).anchors);
  }

  /** Every finding of a scan belongs to an anchor that was unmarked before it. */
  lemma {:induction false} FindingsFromUncheckedAnchors(tlds: seq<string>, parse: HostParser, anchors: seq<Anchor>)
    ensures forall f :: f in ScanLinks(tlds, parse, anchors).findings ==>
              exists i :: 0 <= i < |anchors| && !anchors[i].checked && f in AnchorFindings(tlds, parse, anchors[i])
  {
    if |anchors| > 0 {
      FindingsFromUncheckedAnchors(tlds, parse, anchors[1..]);
      var r := ScanLinks(tlds, parse, anchors);
      var rest := ScanLinks(tlds, parse, anchors[1..]);
      forall f | f in r.findings
        ensures exists i :: 0 <= i < |anchors| && !anchors[i].checked && f in AnchorFindings(tlds, parse, anchors[i])
      {
        if f !in Visit(tlds, parse, anchors[0]) {
          assert f in rest.findings;
          var i :| 0 <= i < |anchors[1..]| && !anchors[1..][i].checked && f in AnchorFindings(tlds, parse, anchors[1..][i]);
          assert anchors[i + 1] == anchors[1..][i];
        }
      }
    }
  }

  /** A scan of `a + b` finds what a scan of `a` finds followed by what a
      scan of `b` finds. With `ScanOneAnchor` this fixes the findings
      exactly: the findings of each unmarked anchor, in document order. */
  lemma {:induction false} ScanLinksAppend(tlds: seq<string>, parse: HostParser, a: seq<Anchor>, b: seq<Anchor>)
    ensures ScanLinks(tlds, parse, a + b).findings == ScanLinks(tlds, parse, a).findings + ScanLinks(tlds, parse, b).findings
  {
    if |a| > 0 {
      assert (a + b)[0] == a[0];
      assert (a + b)[1..] == a[1..] + b;
      ScanLinksAppend(tlds, parse, a[1..], b);
      AppendAssociative(Visit(tlds, parse, a[0]), ScanLinks(tlds, parse, a[1..]).findings, ScanLinks(tlds, parse, b).findings);
    } else {
      assert a + b == b;
    }
  }

  /** A single anchor yields its findings unless it is already marked. */
  lemma ScanOneAnchor(tlds: seq<string>, parse: HostParser, x: Anchor)
    ensures ScanLinks(tlds, parse, [x]).findings == if x.checked then [] else AnchorFindings(tlds, parse, x)
  {
    assert [x][1..] == [];
  }

  /** The findings of every unmarked anchor appear in the scan, together,
      between the findings of the anchors before it and those of the anchors
      after it. */
  lemma UncheckedAnchorReported(tlds: seq<string>, parse: HostParser, anchors: seq<Anchor>, i: nat)
    requires i < |anchors| && !anchors[i].checked
    ensures ScanLinks(tlds, parse, anchors).findings
            == ScanLinks(tlds, parse, anchors[..i]).findings
               + AnchorFindings(tlds, parse, anchors[i])
               + ScanLinks(tlds, parse, anchors[i + 1..]).findings
  {
    var pre, x, post := anchors[..i], anchors[i], anchors[i + 1..];
    assert anchors == pre + ([x] + post);
    ScanLinksAppend(tlds, parse, pre, [x] + post);
    ScanLinksAppend(tlds, parse, [x], post);
    ScanOneAnchor(tlds, parse, x);
    AppendAssociative(ScanLinks(tlds, parse, pre).findings, AnchorFindings(tlds, parse, x), ScanLinks(tlds, parse, post).findings);
  }

  /** The mismatch finding, spelled out: the link text contains a dot, is
      under 40 characters, both URLs parse, and the host names differ after
      each loses its first "www.". */
  lemma MismatchIff(tlds: seq<string>, parse: HostParser, a: Anchor)
    ensures LinkFinding(Mismatch, a.href) in AnchorFindings(tlds, parse, a) <==>
              && Contains(a.innerText, ".")
              && |a.innerText| < 40
              && parse(LabelUrl(a.innerText)).Some?
              && parse(a.href).Some?
              && StripWww(parse(LabelUrl(a.innerText)).value) != StripWww(parse(a.href).value)
  {
  }

  /** Any parse failure means no mismatch. */
  lemma ParseFailureIsNoMismatch(tlds: seq<string>, parse: HostParser, a: Anchor)
    requires parse(LabelUrl(a.innerText)).None? || parse(a.href).None?
    ensures LinkFinding(Mismatch, a.href) !in AnchorFindings(tlds, parse, a)
  {
  }

  /** `replace` removes the first "www." wherever it is, not only as a
      prefix: "mail.www.bank.com" becomes "mail.bank.com". */
  lemma StripWwwInside(pre: string, rest: string)
    requires forall i :: 0 <= i < |pre| ==> pre[i] != 'w'
    ensures StripWww(pre + "www." + rest) == pre + rest
  {
    var h := pre + "www." + rest;
    IndexOfSkip(h, "www.", 0, |pre|);
    assert h[|pre|..|pre| + 4] == "www.";
    assert IndexOf(h, "www.", 0) == Some(|pre|);
    assert h[..|pre|] == pre;
    assert h[|pre| + 4..] == rest;
  }

  /** On a host name that starts with "www." the replacement removes that prefix. */
  lemma StripWwwPrefix(h: string)
    requires StartsWith(h, "www.")
    ensures StripWww(h) == h[4..]
  {
    assert h[0..4] == "www.";
    assert IndexOf(h, "www.", 0) == Some(0);
  }

  /** Link text that looks like a URL, over a link to a different host, is a
      mismatch when neither host name contains "www." (text "bank.com" over a
      link to "evil-bank.net", say). */
  lemma DifferentHostsMismatch(parse: HostParser, href: string, text: string, h1: string, h2: string)
    requires LooksLikeUrl(text)
    requires parse(LabelUrl(text)) == Some(h1) && parse(href) == Some(h2)
    requires !Contains(h1, "www.") && !Contains(h2, "www.") && h1 != h2
    ensures IsMismatch(parse, Anchor(href, text, false))
  {
    assert StripWww(h1) == h1 && StripWww(h2) == h2;
  }

  /** Link text naming a host is no mismatch for a link to the same host with
      "www." in front (text "bank.com" over a link to "www.bank.com", say). */
  lemma WwwVariantNoMismatch(parse: HostParser, href: string, text: string, h: string)
    requires parse(LabelUrl(text)) == Some(h) && parse(href) == Some("www." + h)
    requires !Contains(h, "www.")
    ensures !IsMismatch(parse, Anchor(href, text, false))
  {
    StripWwwPrefix("www." + h);
    assert ("www." + h)[4..] == h;
  }

  /** Start positions whose character is not the pattern's first can be skipped. */
  lemma {:induction false} IndexOfSkip(s: string, p: string, lo: nat, hi: nat)
    requires |p| > 0 && lo <= hi
    requires forall i :: lo <= i < hi && i < |s| ==> s[i] != p[0]
    ensures IndexOf(s, p, lo) == IndexOf(s, p, hi)
    decreases hi - lo
  {
    if lo < hi && lo + |p| <= |s| {
      assert s[lo..lo + |p|][0] == s[lo];
      IndexOfSkip(s, p, lo + 1, hi);
    }
  }
}

=== FILE: regex.dfy ===
/** The two pieces of regular-expression machinery the keyword scan uses:
    `escapeRegExp`, and the test of the pattern `\b<keyword>\b` with the
    case-insensitive flag, whose meaning is stated directly on strings. */
module Regex {
  import opened Text

  /** The characters `escapeRegExp` prefixes with a backslash:
      `. * + ? ^ $ { } ( ) | [ ] \`, exactly the SyntaxCharacter set of
      ECMAScript regular expressions (section 22.2.1 of ECMA-262). */
  predicate IsSpecial(c: char) {
    c in ".*+?^${}()|[]\\"
  }

  /** Number of special characters in `s`. */
  function CountSpecial(s: string): nat {
    if |s| == 0 then 0
    else (if IsSpecial(s[0]) then 1 else 0) + CountSpecial(s[1..])
  }

  /** The escaped form of one character. */
  function EscapeChar(c: char): string {
    if IsSpecial(c) then ['\\', c] else [c]
  }

  /** `escapeRegExp(s)`: every special character gets a backslash in front of it. */
  function EscapeRegExp(s: string): (r: string)
    ensures |r| == |s| + CountSpecial(s)
  {
    if |s| == 0 then [] else EscapeChar(s[0]) + EscapeRegExp(s[1..])
  }

  /** Removes one backslash in front of each special character. */
  function Unescape(r: string): string {
    if |r| == 0 then []
    else if |r| >= 2 && r[0] == '\\' && IsSpecial(r[1]) then [r[1]] + Unescape(r[2..])
    else [r[0]] + Unescape(r[1..])
  }

  /** Stripping the escapes restores the keyword: escaping loses nothing. */
  lemma {:induction false} UnescapeEscape(s: string)
    ensures Unescape(EscapeRegExp(s)) == s
  {
    if |s| > 0 {
      var e := EscapeRegExp(s);
      var rest := EscapeRegExp(s[1..]);
      assert e == EscapeChar(s[0]) + rest;
      UnescapeEscape(s[1..]);
      if IsSpecial(s[0]) {
        assert e[2..] == rest;
      } else {
        assert s[0] != '\\';
        assert e[1..] == rest;
      }
      assert [s[0]] + s[1..] == s;
    }
  }

  /** Escaping distributes over concatenation: each character is escaped on
      its own, independent of its neighbours. */
  lemma {:induction false} EscapeAppend(a: string, b: string)
    ensures EscapeRegExp(a + b) == EscapeRegExp(a) + EscapeRegExp(b)
  {
    if |a| == 0 {
      assert a + b == b;
    } else {
      assert (a + b)[0] == a[0];
      assert (a + b)[1..] == a[1..] + b;
      EscapeAppend(a[1..], b);
      calc {
        EscapeRegExp(a + b);
        EscapeChar(a[0]) + EscapeRegExp(a[1..] + b);
        EscapeChar(a[0]) + (EscapeRegExp(a[1..]) + EscapeRegExp(b));
        (EscapeChar(a[0]) + EscapeRegExp(a[1..])) + EscapeRegExp(b);
      }
    }
  }

  /** A non-special character passes through unchanged, a special one gains
      exactly one backslash. */
  lemma EscapeSingle(c: char)
    ensures !IsSpecial(c) ==> EscapeRegExp([c]) == [c]
    ensures IsSpecial(c) ==> EscapeRegExp([c]) == ['\\', c]
  {
    assert [c][1..] == [];
  }

  // ---------------------------------------------------------------------
  // Word boundaries and the whole-word, case-insensitive test

  /** `\w`: ASCII letters, digits and underscore. */
  predicate IsWordChar(c: char) {
    ('a' <= c <= 'z') || ('A' <= c <= 'Z') || ('0' <= c <= '9') || c == '_'
  }

  predicate WordBefore(s: string, p: int) {
    0 < p <= |s| && IsWordChar(s[p - 1])
  }

  predicate WordAfter(s: string, p: int) {
    0 <= p < |s| && IsWordChar(s[p])
  }

  /** `\b` holds at position `p` iff exactly one of the characters on either
      side of `p` is a word character (outside the string counts as non-word). */
  predicate IsBoundary(s: string, p: int) {
    WordBefore(s, p) != WordAfter(s, p)
  }

  /** The keyword matches `text` at index `i`, ignoring ASCII case, with a word
      boundary on both sides. */
  predicate MatchAt(text: string, kw: string, i: int) {
    && OccursAt(Lower(text), Lower(kw), i)
    && IsBoundary(text, i)
    && IsBoundary(text, i + |kw|)
  }

  /** Reference meaning of `new RegExp('\\b' + escapeRegExp(kw) + '\\b', 'i').test(text)`. */
  ghost predicate WholeWord(text: string, kw: string) {
    exists i :: MatchAt(text, kw, i)
  }

  /** Tries every start position from `from` on, left to right, as the
      regular-expression engine does. */
  function SearchFrom(text: string, kw: string, from: nat): (r: bool)
    ensures r <==> exists i :: from <= i && MatchAt(text, kw, i)
    decreases |text| - from
  {
    if from + |kw| > |text| then false
    else if MatchAt(text, kw, from) then true
    else SearchFrom(text, kw, from + 1)
  }

  /** `regex.test(text)` for the whole-word pattern built from `kw`. */
  function RegexTest(text: string, kw: string): (r: bool)
    ensures r <==> WholeWord(text, kw)
  {
    SearchFrom(text, kw, 0)
  }

  /** The lower-case `includes` pre-filter never rejects a text the regular
      expression accepts, so it only saves work. */
  lemma PrefilterImpliedByRegex(text: string, kw: string)
    requires RegexTest(text, kw)
    ensures Contains(Lower(text), Lower(kw))
  {
    var i :| MatchAt(text, kw, i);
    ContainsIff(Lower(text), Lower(kw));
  }

  /** "class" is not found inside "classified": the only occurrence ends
      between two letters. */
  lemma ClassNotInClassified()
    ensures !RegexTest("classified", "class")
  {
    forall i | MatchAt("classified", "class", i) ensures false {
      NoClassAt(i);
    }
  }

  lemma NoClassAt(i: int)
    ensures !MatchAt("classified", "class", i)
  {
    var t := "classified";
    if OccursAt(Lower(t), Lower("class"), i) {
      var lt := Lower(t);
      assert lt[i] == Lower("class")[0] == 'c';
      assert LowerChar(t[i]) == 'c';
      if i == 0 {
        assert IsWordChar(t[4]) && IsWordChar(t[5]);
      }
    }
  }

  /** A keyword that starts and ends with a word character, standing between
      two spaces, matches there. */
  lemma SpacedWordMatches(a: string, kw: string, b: string)
    requires |kw| > 0 && IsWordChar(kw[0]) && IsWordChar(kw[|kw| - 1])
    ensures MatchAt(a + " " + kw + " " + b, kw, |a| + 1)
  {
    var t := a + " " + kw + " " + b;
    var i := |a| + 1;
    assert t[i..i + |kw|] == kw;
    assert Lower(t)[i..i + |kw|] == Lower(kw) by {
      forall k | 0 <= k < |kw| ensures Lower(t)[i..i + |kw|][k] == Lower(kw)[k] {
        assert t[i + k] == kw[k];
      }
    }
    assert t[i - 1] == ' ' && t[i] == kw[0];
    assert t[i + |kw| - 1] == kw[|kw| - 1] && t[i + |kw|] == ' ';
  }

  /** ... but it is found as a separate word. */
  lemma ClassInSentence()
    ensures RegexTest("enter your class now", "class")
  {
    SpacedWordMatches("enter your", "class", "now");
    assert "enter your" + " " + "class" + " " + "now" == "enter your class now";
  }
}

=== FILE: scan.dfy ===
/** `performScan`: the three stages, the score and the outbound message. */
module Scan {
  import opened Document
  import Keywords
  import Links
  import Forms

  /** `Math.max(0, 100 - detectedCount * 10)`. */
  function Score(detected: nat): (s: int)
    ensures 0 <= s <= 100 && s % 10 == 0
    ensures s == 100 <==> detected == 0
    ensures s == 0 <==> detected >= 10
  {
    if 100 - detected * 10 > 0 then 100 - detected * 10 else 0
  }

  /** The score is strictly decreasing until it saturates at 0. */
  lemma ScoreDecreasing(a: nat, b: nat)
    requires a < b
    ensures Score(b) <= Score(a)
    ensures a < 10 ==> Score(b) < Score(a)
  {
  }

  /** The background's auto-report threshold `score < 45` is reached exactly
      from six findings on. */
  lemma ReportThreshold(detected: nat)
    ensures Score(detected) < 45 <==> detected >= 6
  {
  }

  /** The outcome of one completed scan: the new `threatState`, the page with
      its anchor markers set, the `updateStatus` payload, and the text nodes
      `highlightNode` wraps. */
  datatype ScanOutcome = ScanOutcome(state: ThreatState, page: Page, message: Message, wrapped: seq<nat>)

  function DetectedCount(st: ThreatState): nat {
    |st.keywords| + |st.links| + |st.forms|
  }

  /** `performScan` with the rules loaded. */
  function PerformScan(rules: RuleSet, parse: HostParser, page: Page): (r: ScanOutcome)
    ensures r.message.threats == DetectedCount(r.state)
    ensures r.state.score == r.message.score == Score(r.message.threats)
    ensures 0 <= r.state.score <= 100
    ensures r.state.score == 100 <==> r.state.keywords == [] && r.state.links == [] && r.state.forms == []
    ensures r.message.details.phishingKeywords == r.state.keywords
    ensures r.message.details.suspiciousLinks == r.state.links
    ensures |r.message.details.sensitiveForms| == |r.state.forms|
    ensures r.message.details.hiddenElements == [] && r.state.hidden == []
    ensures r.page.texts == page.texts && r.page.inputs == page.inputs && r.page.protocol == page.protocol
    ensures Links.AllChecked(r.page.anchors) && |r.page.anchors| == |page.anchors|
    ensures |r.wrapped| <= 1
    ensures r.state.keywords == Keywords.ScanText(rules.keywords, page.texts).keywords
    ensures r.wrapped == Keywords.ScanText(rules.keywords, page.texts).wrapped
    ensures r.state.links == Links.ScanLinks(rules.suspiciousTLDs, parse, page.anchors).findings
    ensures r.page.anchors == Links.ScanLinks(rules.suspiciousTLDs, parse, page.anchors).anchors
    ensures r.state.forms == Forms.ScanForms(rules.sensitiveData, page.protocol, page.inputs).forms
    ensures r.message.details.sensitiveForms == Forms.ScanForms(rules.sensitiveData, page.protocol, page.inputs).details
  {
    var text := Keywords.ScanText(rules.keywords, page.texts);
    var links := Links.ScanLinks(rules.suspiciousTLDs, parse, page.anchors);
    var forms := Forms.ScanForms(rules.sensitiveData, page.protocol, page.inputs);
    var count := |text.keywords| + |links.findings| + |forms.forms|;
    var state := ThreatState(text.keywords, links.findings, forms.forms, [], Score(count));
    var details := Details(text.keywords, links.findings, forms.details, []);
    ScanOutcome(state, page.(anchors := links.anchors), Message(count, Score(count), details), text.wrapped)
  }

  /** A second scan finds no links, since every anchor now carries its
      marker, and the same keyword and form findings as the first, as long as
      the text nodes are as the first scan left them. */
  lemma RescanIsStable(rules: RuleSet, parse: HostParser, page: Page)
    ensures PerformScan(rules, parse, PerformScan(rules, parse, page).page).state.links == []
    ensures PerformScan(rules, parse, PerformScan(rules, parse, page).page).state.keywords
            == PerformScan(rules, parse, page).state.keywords
    ensures PerformScan(rules, parse, PerformScan(rules, parse, page).page).state.forms
            == PerformScan(rules, parse, page).state.forms
  {
    Links.RescanFindsNoLinks(rules.suspiciousTLDs, parse, page.anchors);
  }

  /** Keyword findings are pushed whether or not a node is already
      highlighted; the highlight class only decides which node is wrapped, and
      so where the walk stops. Two pages that differ only in highlighting give
      keyword lists one of which extends the other, and a page whose every
      text node is already highlighted reports every node's keyword and wraps
      nothing. */
  lemma HighlightedNodesStillCount(rules: RuleSet, parse: HostParser, page: Page, texts: seq<TextNode>)
    requires |texts| == |page.texts|
    requires forall i :: 0 <= i < |texts| ==> texts[i].(parentHighlighted := true) == page.texts[i].(parentHighlighted := true)
    ensures var ka, kb := PerformScan(rules, parse, page.(texts := texts)).state.keywords, PerformScan(rules, parse, page).state.keywords;
            ka <= kb || kb <= ka
    ensures (forall i :: 0 <= i < |page.texts| ==> page.texts[i].parentHighlighted) ==>
              && PerformScan(rules, parse, page).wrapped == []
              && PerformScan(rules, parse, page).state.keywords
                 == Keywords.HitKeywords(Keywords.AllHitsFrom(Keywords.Observe(rules.keywords, page.texts), 0))
  {
    forall i | 0 <= i < |texts|
      ensures texts[i].(parentHighlighted := false) == page.texts[i].(parentHighlighted := false)
    {
      var a, b := texts[i], page.texts[i];
      assert a.(parentHighlighted := true).text == b.(parentHighlighted := true).text;
      assert a.(parentHighlighted := true).parentTag == b.(parentHighlighted := true).parentTag;
      assert a.(parentHighlighted := true).inSidebar == b.(parentHighlighted := true).inSidebar;
    }
    Keywords.KeywordsIgnoreHighlight(rules.keywords, texts, page.texts);
    var ss := Keywords.Observe(rules.keywords, page.texts);
    if forall i :: 0 <= i < |page.texts| ==> page.texts[i].parentHighlighted {
      assert Keywords.Reaches(ss, 0, |ss|);
    }
  }

  /** A scan reports an auto-report-worthy score exactly when it has at
      least six findings. */
  lemma CriticalIffSixFindings(rules: RuleSet, parse: HostParser, page: Page)
    ensures PerformScan(rules, parse, page).message.score < 45 <==> PerformScan(rules, parse, page).message.threats >= 6
  {
    ReportThreshold(PerformScan(rules, parse, page).message.threats);
  }
}

=== FILE: scheduler.dfy ===
/** The content script's start-up and its one-slot pending-scan scheduler
    (the MutationObserver callback and the `isScanPending` flag), as a state
    machine over abstract events. */
module Scheduler {
  import opened Wrappers
  import opened Seqs
  import opened Document
  import Scan

  /** Milliseconds between the mutation that arms the timer and the scan. */
  const Delay := 750

  /** How loading the rule file ended: `fetch` or `json()` threw, or it gave
      a value (`None` for a JSON `null`). */
  datatype LoadOutcome = LoadFailed | Loaded(rules: Option<RuleSet>)

  /** The content script's module-level state. `deadline` is the time the
      armed timer fires; `frameQueued` is the initial scan requested with
      `requestAnimationFrame`; `observing` says whether the observer and the
      message listener were installed. */
  datatype Session = Session(
    rules: Option<RuleSet>,
    observing: bool,
    frameQueued: bool,
    pending: bool,
    deadline: Option<int>,
    page: Page,
    state: ThreatState,
    reportId: Option<string>)

  datatype Event =
    | Frame                           // the animation frame of the initial scan
    | Mutation(page: Page, now: int)  // the page changed and the observer was told
    | TimerFired                      // the armed timer elapsed
    | ReportConfirmed(id: string)     // the background filed a report

  datatype StepResult = StepResult(session: Session, sent: Option<Message>)

  /** Sessions the scheduler can reach: a timer is armed exactly while a scan
      is pending, and nothing is pending or queued without the observer. */
  predicate Valid(s: Session) {
    && (s.pending <==> s.deadline.Some?)
    && (!s.observing ==> !s.pending && !s.frameQueued)
  }

  /** The initialisation block: with the rules loaded the observer is
      installed and the first scan requested; when loading throws nothing is
      installed at all. */
  function Start(load: LoadOutcome, page: Page): (s: Session)
    ensures Valid(s) && !s.pending
    ensures s.observing <==> load.Loaded?
    ensures s.frameQueued <==> load.Loaded?
    ensures s.state == InitialState
    ensures s.rules == (if load.Loaded? then load.rules else None)
    ensures s.page == page && s.reportId.None?
  {
    match load
    case LoadFailed => Session(None, false, false, false, None, page, InitialState, None)
    case Loaded(r) => Session(r, true, true, false, None, page, InitialState, None)
  }

  /** `performScan()`: without rules it returns at once. */
  function RunScan(s: Session, parse: HostParser): (r: StepResult)
    ensures s.rules.None? ==> r == StepResult(s, None)
    ensures s.rules.Some? ==>
              var out := Scan.PerformScan(s.rules.value, parse, s.page);
              r.sent == Some(out.message) && r.session == s.(page := out.page, state := out.state)
    ensures s.rules.Some? ==> r.sent.Some? && r.session.state.score == r.sent.value.score
    ensures r.session.pending == s.pending && r.session.deadline == s.deadline
    ensures r.session.observing == s.observing && r.session.frameQueued == s.frameQueued
  {
    match s.rules
    case None => StepResult(s, None)
    case Some(rules) =>
      var out := Scan.PerformScan(rules, parse, s.page);
      StepResult(s.(page := out.page, state := out.state), Some(out.message))
  }

  function Step(s: Session, parse: HostParser, e: Event): (r: StepResult)
    ensures Valid(s) ==> Valid(r.session)
    ensures r.session.rules == s.rules && r.session.observing == s.observing
  {
    match e
    case Frame =>
      if s.frameQueued then
        var out := RunScan(s, parse);
        out.(session := out.session.(frameQueued := false))
      else StepResult(s, None)
    case Mutation(p, now) =>
      if s.observing && !s.pending then
        StepResult(s.(page := p, pending := true, deadline := Some(now + Delay)), None)
      else
        StepResult(s.(page := p), None)
    case TimerFired =>
      if s.deadline.Some? then
        var out := RunScan(s, parse);
        out.(session := out.session.(pending := false, deadline := None))
      else StepResult(s, None)
    case ReportConfirmed(id) =>
      if s.observing then StepResult(s.(reportId := Some(id)), None) else StepResult(s, None)
  }

  /** A mutation while no scan is pending arms exactly one timer, 750 ms
      ahead, and scans nothing yet. */
  lemma MutationWhileIdleArms(s: Session, parse: HostParser, p: Page, now: int)
    requires Valid(s) && s.observing && !s.pending
    ensures Step(s, parse, Mutation(p, now))
            == StepResult(s.(page := p, pending := true, deadline := Some(now + 750)), None)
  {
  }

  /** A mutation while a scan is pending changes nothing but the page itself:
      the timer is not restarted. */
  lemma MutationWhilePendingIgnored(s: Session, parse: HostParser, p: Page, now: int)
    requires s.pending
    ensures Step(s, parse, Mutation(p, now)) == StepResult(s.(page := p), None)
  {
  }

  /** `isScanPending` goes from true to false only through the timer, and only
      after the scan ran and its message was sent (when the rules are loaded). */
  lemma PendingClearedOnlyByScan(s: Session, parse: HostParser, e: Event)
    requires Valid(s) && s.pending
    ensures !Step(s, parse, e).session.pending ==>
              && e.TimerFired?
              && Step(s, parse, e).sent == RunScan(s, parse).sent
              && Step(s, parse, e).session.state == RunScan(s, parse).session.state
  {
  }

  /** The animation frame queued at start-up runs the first scan on the page
      as loaded, and the scan's message is sent. */
  lemma InitialFrameScans(rules: RuleSet, parse: HostParser, page: Page)
    ensures Step(Start(Loaded(Some(rules)), page), parse, Frame).sent
            == Some(Scan.PerformScan(rules, parse, page).message)
    ensures Step(Start(Loaded(Some(rules)), page), parse, Frame).session.state
            == Scan.PerformScan(rules, parse, page).state
    ensures !Step(Start(Loaded(Some(rules)), page), parse, Frame).session.frameQueued
  {
  }

  /** A frame scans only while one is queued, and the scan unqueues it. */
  lemma FrameRunsQueuedScanOnce(s: Session, parse: HostParser)
    ensures !s.frameQueued ==> Step(s, parse, Frame) == StepResult(s, None)
    ensures s.frameQueued ==>
              && !Step(s, parse, Frame).session.frameQueued
              && Step(s, parse, Frame).sent == RunScan(s, parse).sent
              && Step(s, parse, Frame).session.state == RunScan(s, parse).session.state
  {
  }

  /** Without rules a scan changes no state and sends no message. */
  lemma NoRulesNoScan(s: Session, parse: HostParser, e: Event)
    requires s.rules.None?
    ensures Step(s, parse, e).sent.None?
    ensures Step(s, parse, e).session.state == s.state
  {
  }

  /** The message a step sends, as a sequence of zero or one. */
  function Sent(r: StepResult): seq<Message> {
    if r.sent.Some? then [r.sent.value] else []
  }

  /** Runs a sequence of events, collecting the messages sent. */
  function Run(s: Session, parse: HostParser, events: seq<Event>): (r: (Session, seq<Message>))
    ensures |r.1| <= |events|
    ensures r.0.rules == s.rules && r.0.observing == s.observing
    ensures Valid(s) ==> Valid(r.0)
    decreases |events|
  {
    if |events| == 0 then (s, [])
    else
      var first := Step(s, parse, events[0]);
      var rest := Run(first.session, parse, events[1..]);
      (rest.0, Sent(first) + rest.1)
  }

  predicate AllMutations(events: seq<Event>) {
    forall i :: 0 <= i < |events| ==> events[i].Mutation?
  }

  /** While a scan is pending, any burst of mutations leaves the deadline
      where the first one put it and sends nothing. */
  lemma {:induction false} BurstWhilePending(s: Session, parse: HostParser, events: seq<Event>)
    requires s.pending && AllMutations(events)
    ensures Run(s, parse, events).0.pending
    ensures Run(s, parse, events).0.deadline == s.deadline
    ensures Run(s, parse, events).0.state == s.state
    ensures Run(s, parse, events).1 == []
    ensures |events| > 0 ==> Run(s, parse, events).0.page == events[|events| - 1].page
    decreases |events|
  {
    if |events| > 0 {
      BurstWhilePending(Step(s, parse, events[0]).session, parse, events[1..]);
      if |events| > 1 {
        assert events[1..][|events| - 2] == events[|events| - 1];
      }
    }
  }

  /** A burst of mutations starting from an idle, observing session sets one
      timer for 750 ms after the FIRST mutation; when it fires, exactly one
      scan runs and the session is idle again. */
  lemma BurstCoalesces(s: Session, parse: HostParser, events: seq<Event>, rules: RuleSet)
    requires Valid(s) && s.observing && !s.pending && s.rules == Some(rules)
    requires |events| > 0 && AllMutations(events)
    ensures Run(s, parse, events).0.deadline == Some(events[0].now + 750)
    ensures Run(s, parse, events).1 == []
    ensures Run(s, parse, events + [TimerFired]).1 == [Scan.PerformScan(rules, parse, events[|events| - 1].page).message]
    ensures !Run(s, parse, events + [TimerFired]).0.pending
  {
    var first := Step(s, parse, events[0]).session;
    BurstWhilePending(first, parse, events[1..]);
    if |events| > 1 {
      assert events[1..][|events| - 2] == events[|events| - 1];
    }
    RunAppend(s, parse, events, [TimerFired]);
    var mid := Run(s, parse, events).0;
    assert Run(mid, parse, [TimerFired]).1 == [RunScan(mid, parse).sent.value];
  }

  /** Running two event sequences one after the other: the session ends
      where running the second from the first's end leaves it, and the
      messages are the first's followed by the second's. */
  lemma RunAppend(s: Session, parse: HostParser, a: seq<Event>, b: seq<Event>)
    ensures Run(s, parse, a + b).0 == Run(Run(s, parse, a).0, parse, b).0
    ensures Run(s, parse, a + b).1 == Run(s, parse, a).1 + Run(Run(s, parse, a).0, parse, b).1
  {
    RunAppendSession(s, parse, a, b);
    RunAppendMessages(s, parse, a, b);
  }

  lemma {:induction false} RunAppendSession(s: Session, parse: HostParser, a: seq<Event>, b: seq<Event>)
    ensures Run(s, parse, a + b).0 == Run(Run(s, parse, a).0, parse, b).0
    decreases |a|
  {
    if |a| == 0 {
      assert a + b == b;
    } else {
      assert (a + b)[0] == a[0];
      assert (a + b)[1..] == a[1..] + b;
      RunAppendSession(Step(s, parse, a[0]).session, parse, a[1..], b);
    }
  }

  lemma {:induction false} RunAppendMessages(s: Session, parse: HostParser, a: seq<Event>, b: seq<Event>)
    ensures Run(s, parse, a + b).1 == Run(s, parse, a).1 + Run(Run(s, parse, a).0, parse, b).1
    decreases |a|
  {
    if |a| == 0 {
      assert a + b == b;
    } else {
      var first := Step(s, parse, a[0]);
      assert (a + b)[0] == a[0];
      assert (a + b)[1..] == a[1..] + b;
      RunAppendSession(first.session, parse, a[1..], b);
      RunAppendMessages(first.session, parse, a[1..], b);
      var mid := Run(first.session, parse, a[1..]);
      AppendAssociative(Sent(first), mid.1, Run(mid.0, parse, b).1);
    }
  }

  /** When the rule file cannot be loaded the engine stays inert: whatever
      happens, no scan runs and no message is sent. */
  lemma {:induction false} FailedLoadIsInert(page: Page, parse: HostParser, events: seq<Event>)
    ensures Run(Start(LoadFailed, page), parse, events).1 == []
    ensures Run(Start(LoadFailed, page), parse, events).0.state == InitialState
  {
    InertStaysInert(Start(LoadFailed, page), parse, events);
  }

  lemma {:induction false} InertStaysInert(s: Session, parse: HostParser, events: seq<Event>)
    requires s.rules.None?
    ensures Run(s, parse, events).1 == []
    ensures Run(s, parse, events).0.state == s.state
    decreases |events|
  {
    if |events| > 0 {
      InertStaysInert(Step(s, parse, events[0]).session, parse, events[1..]);
    }
  }
}

=== FILE: seqs.dfy ===
/** Generic facts about sequences that the scan stages and the scheduler
    use to split and join their results. */
module Seqs {

  lemma AppendAssociative<T>(x: seq<T>, y: seq<T>, z: seq<T>)
    ensures x + (y + z) == (x + y) + z
  {
  }

  /** Two prefixes of one sequence: the shorter is a prefix of the longer. */
  lemma PrefixesAgree<T>(p: seq<T>, q: seq<T>, s: seq<T>)
    requires p <= s && q <= s
    ensures p <= q || q <= p
  {
    if |p| <= |q| {
      assert forall i :: 0 <= i < |p| ==> p[i] == s[i] == q[i];
    } else {
      assert forall i :: 0 <= i < |q| ==> q[i] == s[i] == p[i];
    }
  }

  /** The middle part of a concatenation is contained in its multiset. */
  lemma MiddleInMultiset<T>(a: seq<T>, b: seq<T>, c: seq<T>)
    ensures multiset(b) <= multiset(a + b + c)
  {
    assert multiset(a + b + c) == multiset(a) + multiset(b) + multiset(c);
  }
}

=== FILE: text.dfy ===
/** String primitives the scanner relies on, restricted to ASCII text:
    `toLowerCase`, `includes`, `startsWith` and `replace` with a string pattern. */
module Text {
  import opened Wrappers

  predicate IsUpper(c: char) {
    'A' <= c <= 'Z'
  }

  /** `toLowerCase` on one character; only ASCII letters are folded. */
  function LowerChar(c: char): char {
    if IsUpper(c) then (c as int + 32) as char else c
  }

  /** `toLowerCase` on a whole string. */
  function Lower(s: string): (r: string)
    ensures |r| == |s|
    ensures forall i :: 0 <= i < |s| ==> r[i] == LowerChar(s[i])
  {
    seq(|s|, i requires 0 <= i < |s| => LowerChar(s[i]))
  }

  /** `p` occurs in `s` starting at index `i`. */
  predicate OccursAt(s: string, p: string, i: int) {
    0 <= i && i + |p| <= |s| && s[i..i + |p|] == p
  }

  /** `s.indexOf(p, from)`: the leftmost occurrence of `p` at or after `from`. */
  function IndexOf(s: string, p: string, from: nat): (r: Option<nat>)
    ensures r.Some? ==> from <= r.value && OccursAt(s, p, r.value)
    ensures r.Some? ==> forall j :: from <= j < r.value ==> !OccursAt(s, p, j)
    ensures r.None? ==> forall j :: from <= j ==> !OccursAt(s, p, j)
    decreases |s| - from
  {
    if from + |p| > |s| then None
    else if s[from..from + |p|] == p then Some(from)
    else IndexOf(s, p, from + 1)
  }

  /** `s.includes(p)`. */
  predicate Contains(s: string, p: string) {
    IndexOf(s, p, 0).Some?
  }

  lemma ContainsIff(s: string, p: string)
    ensures Contains(s, p) <==> exists i :: OccursAt(s, p, i)
  {
    if Contains(s, p) {
      assert OccursAt(s, p, IndexOf(s, p, 0).value);
    }
  }

  /** `s.startsWith(p)`. */
  predicate StartsWith(s: string, p: string) {
    |p| <= |s| && s[..|p|] == p
  }

  /** `s.replace(p, rep)` with a string pattern: only the FIRST occurrence of
      `p` is replaced, wherever it is; without an occurrence `s` is returned. */
  function ReplaceFirst(s: string, p: string, rep: string): (r: string)
    ensures !Contains(s, p) ==> r == s
    ensures Contains(s, p) ==>
              exists i :: && OccursAt(s, p, i)
                          && r == s[..i] + rep + s[i + |p|..]
                          && forall j :: 0 <= j < i ==> !OccursAt(s, p, j)
  {
    match IndexOf(s, p, 0)
    case None => s
    case Some(i) => s[..i] + rep + s[i + |p|..]
  }
}

=== FILE: wrappers.dfy ===
/** Failure-compatible optional values, used for the results of host-name
    parsing, optional storage entries and "first match" searches. */
module Wrappers {

  datatype Option<+T> = None | Some(value: T) {

    /** The wrapped value, or `default` when there is none (JavaScript's `x || default`). */
    function GetOr(default: T): T {
      match this
      case Some(v) => v
      case None => default
    }
  }
}
